=== FILE: README.md ===
# baremetal_raspi GPIO and UART0 drivers in Dafny

This project models the two register-level drivers of the `baremetal-raspi` crate, which
targets the Raspberry Pi's BCM283x:

- **GPIO** (`gpio.rs`, `gpio/convert.rs`): 54 pin handles. Each handle carries a pin
  index and a mode (Input, Output, AF0..AF5). Level writes go to the set/clear banks,
  level reads come from the level registers, and mode switches write a 3-bit
  function-select code into one of six `gpfsel` registers.
- **UART0 serial driver** (`serial.rs`): the TX/RX pin capabilities, the bring-up write
  sequence, the single-attempt `read`/`write`/`flush`, and the blocking
  `write_bytes`/`read_bytes` loops.

Every driver operation is a function, or a method that uses no heap. It takes the register state and returns its
result together with the ordered list of register writes it performs. The state after
an operation is the replay of those writes (`GpioRegisters.Replay`,
`UartRegisters.UartReplay`).

- The typestate becomes a runtime mode tag.
- Consuming a handle becomes returning a new handle with the same index.
- A `panic!` is an outcome of its own, carrying the writes made before it.

Files:

| file | contents |
|---|---|
| `words.dfy` | 32-bit register words as 32 booleans, bit 0 first; single-bit masks; Rust's `<<` on `u32` in debug and release builds; 3-bit fields |
| `gpio_registers.dfy` | GPIO register names, the register file, and write replay |
| `gpio.dfy` | pin handles, level writes and reads, `split` |
| `gpio_convert.dfy` | the function-select code table, `mode`/`into_*`, and the corrected mode writes |
| `uart_registers.dfy` | UART0 register fields as named values; write replay |
| `baud.dfy` | the baud-divisor rule in integers and the constants it yields |
| `serial.dfy` | the serial driver |

The hardware side is modelled as input:

- A level read reads the register file.
- Every UART flag-register read takes the next snapshot from a finite sequence.
- Every `read` attempt takes the next (data register, flag register) pair.
- A `block!` loop that runs out of snapshots is reported as starved.

The `u32` shift in `mode` depends on the build. The model therefore takes a `Profile`:

- `Debug`: overflow checks on, so a shift by 32 or more panics.
- `Release`: the shift amount is taken modulo 32.

The conversions (`into_*`) keep the mode write as the code has it. The corrected writes
from "## Findings" are defined next to it, together with their proofs.

Two facts about the source that the model makes explicit:

- **UART pin pairs.** `uart0` bounds TX and RX separately (serial.rs:43). So mixed pairs
  such as (14, AF0) with (37, AF2) are accepted (`Serial.MixedPairAccepted`).
- **115200 baud.** The comment at serial.rs:87 gives 26 + 43/64. The rounding rule at
  serial.rs:75-76 gives 26 and 3 (`Baud.Divisor115200`). The code programs 9600 baud,
  and there the rule gives 312 and 32, which are the values written.

## Model

| member | source | states |
|---|---|---|
| Words.Shl | baremetal-raspi/src/gpio/convert.rs:39-56 | `x << s` on a `u32`: the shift fails exactly when `s >= 32` in a debug build; a smaller shift moves every bit up by `s` and fills with zeros; a release build shifts by `s % 32` |
| Words.MaskIsZeroIffBitClear | baremetal-raspi/src/gpio.rs:165-166 | `lev & (1 << k) == 0` holds exactly when bit `k` of `lev` is clear |
| Gpio.SetHighRaw | baremetal-raspi/src/gpio.rs:126-135 | pins 0..53 do exactly one write, the single bit `N % 32` to `gpset0` (N < 32) or `gpset1`, which raises that pin's level and changes nothing else in any register state; any other index panics with no write |
| Gpio.SetLowRaw | baremetal-raspi/src/gpio.rs:139-148 | the same for `gpclr0`/`gpclr1`, lowering only that pin's level; other indices panic with no write |
| Gpio.SetStateRaw | baremetal-raspi/src/gpio.rs:152-157 | one write of the pin's single bit to `gpset`/`gpclr` of its bank, which leaves the pin at the requested level and changes nothing else; panics with no write exactly for indices above 53 |
| Gpio.IsLowRaw | baremetal-raspi/src/gpio.rs:160-168 | true exactly when the pin's bit of `gplev0`/`gplev1` is zero; writes nothing; indices above 53 panic |
| Gpio.SetHigh | baremetal-raspi/src/gpio.rs:174-178 | an Output handle's `set_high` raises that pin's level alone, in one write; an index above 53 panics with no write |
| Gpio.SetLow | baremetal-raspi/src/gpio.rs:180-184 | an Output handle's `set_low` lowers that pin's level alone, in one write; an index above 53 panics with no write |
| Gpio.GetState | baremetal-raspi/src/gpio.rs:186-194 | High exactly when the pin's level bit is set; writes nothing |
| Gpio.SetState | baremetal-raspi/src/gpio.rs:196-200 | leaves the pin at the requested level, in one write, and changes nothing else; an index above 53 panics with no write |
| Gpio.IsSetHigh | baremetal-raspi/src/gpio.rs:202-206 | the pin's level bit; writes nothing |
| Gpio.IsSetLow | baremetal-raspi/src/gpio.rs:208-212 | the negated level bit; writes nothing |
| Gpio.Toggle | baremetal-raspi/src/gpio.rs:214-222 | one write that inverts the pin's level as read and changes nothing else; an index above 53 panics with no write |
| Gpio.IsHigh | baremetal-raspi/src/gpio.rs:225-230 | an Input handle reads its level bit; writes nothing |
| Gpio.IsLow | baremetal-raspi/src/gpio.rs:232-236 | an Input handle reads its negated level bit; writes nothing |
| Gpio.Split | baremetal-raspi/src/gpio.rs:248-260 | 54 handles, the i-th for pin i, all in Input mode; no register is written |
| Gpio.SplitOneHandlePerPin | baremetal-raspi/src/gpio.rs:239-265 | every pin 0..53 has exactly one handle and no handle names a pin outside 0..53 |
| Gpio.SetThenRead | baremetal-raspi/src/gpio.rs:174-212 | after `set_high` the pin reads as not set low; after `set_low` it reads as set low |
| Gpio.ToggleTwiceRestores | baremetal-raspi/src/gpio.rs:214-222 | toggling flips `is_set_low`, and toggling twice restores the whole register state |
| Gpio.QueriesAreNegations | baremetal-raspi/src/gpio.rs:186-236 | `is_set_high == !is_set_low`, `get_state` is Low exactly when `is_set_low`, and on Input handles `is_high == !is_low` |
| Gpio.SetStateDispatches | baremetal-raspi/src/gpio.rs:152-157 | `set_state(Low)` is `set_low` and `set_state(High)` is `set_high`, writes included |
| Convert.ModeCode | baremetal-raspi/src/gpio/convert.rs:70-109 | `PinMode::BITS`: every mode's code fits in the 3-bit field; together with `ModeOf` it is a bijection between the eight modes and the eight codes (next rows) |
| Convert.ModeOfModeCode | baremetal-raspi/src/gpio/convert.rs:79-109 | decoding a mode's function-select code gives the mode back |
| Convert.ModeCodeOfMode | baremetal-raspi/src/gpio/convert.rs:79-109 | all eight 3-bit codes are used: encoding the mode a code selects gives the code back |
| Convert.ModeCodesDistinct | baremetal-raspi/src/gpio/convert.rs:79-109 | two modes have the same code exactly when they are the same mode |
| Convert.FselRegister | baremetal-raspi/src/gpio/convert.rs:38-57 | pins 0..53 select `gpfsel(N / 10)`; every other index selects nothing |
| Convert.ModeWrite | baremetal-raspi/src/gpio/convert.rs:35-60 | the mode write as written: it panics with no write for indices above 53 and, in a debug build, for pins 11..53 (shift `N * 3 >= 32`); otherwise it does one write to the pin's bank register |
| Convert.ModeWriteBankZero | baremetal-raspi/src/gpio/convert.rs:39-41 | for pins 0..9, in either build, the write holds the mode's code at bits `3N..3N+2` of `gpfsel0` and zeros elsewhere |
| Convert.ModeWriteMisplaced | baremetal-raspi/src/gpio/convert.rs:42-56 | for pins 10..53 and any mode but Input, the pin's own field never receives the mode's code |
| Convert.ModeWritePlacesIffBankZero | baremetal-raspi/src/gpio/convert.rs:39-56 | for a mode other than Input, the write places the code in the pin's field exactly when N <= 9 |
| Convert.ShiftedCodeMisplaced | baremetal-raspi/src/gpio/convert.rs:41-56 | a nonzero code shifted by anything other than the field's offset does not read back from that field |
| Convert.UartTxPinDebug | baremetal-raspi/src/gpio/convert.rs:42-44 | pin 14 into AF0 panics in a debug build (shift by 42) |
| Convert.UartTxPinRelease | baremetal-raspi/src/gpio/convert.rs:42-44 | pin 14 into AF0 in a release build writes `1 << 12` to `gpfsel1`, which sets pin 14's field to Output |
| Convert.ModeWriteIntended | baremetal-raspi/src/gpio/convert.rs:35-60 | corrected offset `(N % 10) * 3`: for every pin 0..53 the bank register's pin field holds the mode's code and every other bit is zero |
| Convert.IntendedAgreesOnBankZero | baremetal-raspi/src/gpio/convert.rs:39-41 | the corrected and the written mode writes are identical for pins 0..9 |
| Convert.BankNeighbourReset | baremetal-raspi/src/gpio/convert.rs:39-41 | after switching pin 2 to Output and then pin 3 to Output, the zero-filled write has put pin 2 back to Input |
| Convert.AsWrittenBreaksHandleConsistency | baremetal-raspi/src/gpio/convert.rs:39-41 | two distinct handles that match the registers stop matching after one of them switches mode |
| Convert.ModeWriteModify | baremetal-raspi/src/gpio/convert.rs:35-60 | corrected read-modify-write: the pin gets the new mode and every other pin keeps its mode |
| Convert.ModifyKeepsHandlesConsistent | baremetal-raspi/src/gpio/convert.rs:64-67 | with the read-modify-write, converting one of a set of distinct handles keeps every handle matching the registers |
| Convert.FselWriteMode | baremetal-raspi/src/gpio/convert.rs:38-57 | after a single write to a pin's bank register, whatever came before, the pin is in a mode exactly when the written word holds that mode's code in the pin's field |
| Convert.ModeWriteInputZero | baremetal-raspi/src/gpio/convert.rs:39-56 | the Input write holds Input's code in the pin's field for every pin and build, because Input's code is zero |
| Convert.ModeWriteSetsModeIff | baremetal-raspi/src/gpio/convert.rs:35-60 | after a mode write that does not panic, the pin is in the target mode exactly when the pin is 0..9 or the mode is Input |
| Convert.IntoMode | baremetal-raspi/src/gpio/convert.rs:64-67 | exactly one function-select write to the pin's bank, returning a handle for the same pin in the target mode; for pins 0..9, and for Input on every pin, the registers then hold that mode for it; for pins 10..53 any other mode is never reached; it panics with no write exactly when the mode write does |
| Convert.IntoInput | baremetal-raspi/src/gpio/convert.rs:4-7 | one write to the pin's bank, returning the same pin in Input mode; on every pin the registers then hold Input for it, since Input's code is zero |
| Convert.IntoOutput | baremetal-raspi/src/gpio/convert.rs:9-12 | one write to the pin's bank, returning the same pin in Output mode; for pins 0..9 the registers then hold Output for it, and for pins 10..53 they never do |
| Convert.IntoOutputInState | baremetal-raspi/src/gpio/convert.rs:14-19 | the level write comes strictly before the function-select write to the pin's bank; the output latch then holds the requested level; for pins 0..9 the pin is left in Output mode and for pins 10..53 it never is; the level write is the pin's single set or clear bit, and when the mode write panics on the shift it has already happened and set the requested level; an index above 53 panics with no write |
| Convert.AlternateMode | baremetal-raspi/src/gpio/convert.rs:21-28 | `into_alternate_fnK` targets the mode with code 0b100, 0b101, 0b110, 0b111, 0b011 for K = 0..4, that is AF0..AF4, never AF5, Input or Output |
| Convert.IntoAlternate | baremetal-raspi/src/gpio/convert.rs:21-28 | `into_alternate_fnK` does one write to the pin's bank and returns the same pin in mode AF K; for pins 0..9 the registers then hold AF K for it, and for pins 10..53 they never do |
| Convert.UartTxPinIntoAlternate | baremetal-raspi/src/gpio/convert.rs:21-28 | `into_alternate_fn0` on pin 14, the UART's TX pin, panics in a debug build; in a release build it writes `1 << 12` to `gpfsel1` and leaves pin 14 in Output, not AF0 |
| Convert.AlternateFamilyOmitsAf5 | baremetal-raspi/src/gpio/convert.rs:21-28 | a mode has an `into_alternate_fnK` exactly when it is one of AF0..AF4, so AF5 is reached only through `into_mode` |
| Baud.BaudDivisor | baremetal-raspi/src/serial.rs:74-76 | the integer divisor is the whole part of `clock / (16 * baud)`, the fraction is at most 64, and `integer + fraction/64` is within 1/128 of the true divisor |
| Baud.ProgrammedDivisor | baremetal-raspi/src/serial.rs:74-85 | 48 MHz at 9600 baud gives 312 and 32, the constants written to `ibrd` and `fbrd` |
| Baud.Divisor115200 | baremetal-raspi/src/serial.rs:75-80 | 48 MHz at 115200 baud gives 26 and 3 under the same rule |
| Serial.IsTxPin | baremetal-raspi/src/serial.rs:31-41 | `TxPin<UART0>` holds for exactly (14, AF0), (32, AF3) and (36, AF2); related to the RX side by the next row |
| Serial.IsRxPin | baremetal-raspi/src/serial.rs:31-41 | `RxPin<UART0>` holds for exactly (15, AF0), (33, AF3) and (37, AF2); related to the TX side by the next row |
| Serial.RxPinFollowsTxPin | baremetal-raspi/src/serial.rs:31-41 | the RX pins are exactly the pins after the TX pins, in the same mode, and no pin serves both roles |
| Serial.CapablePinsAreAlternate | baremetal-raspi/src/serial.rs:31-41 | only AF0, AF2 and AF3 handles are capable, so a fresh Input handle is neither TX nor RX |
| Serial.MixedPairAccepted | baremetal-raspi/src/serial.rs:43 | TX and RX are checked separately, so pin 14 in AF0 with pin 37 in AF2 is accepted and configures the UART |
| Serial.Flush | baremetal-raspi/src/serial.rs:205-214 | Ok exactly when `busy` is clear, otherwise WouldBlock; never a hard error |
| Serial.AwaitIdle | baremetal-raspi/src/serial.rs:192 | `block!(flush())` finishes at the first idle snapshot; every earlier snapshot was busy; with no idle snapshot it starves |
| Serial.Uart0 | baremetal-raspi/src/serial.rs:46-133 | the first writes are `cr = 0` and then the interrupt clear; a completed bring-up does exactly eight writes in the source's order: `ibrd = 312` and `fbrd = 32` before `lcr_h`, then `imsc`, `dmacr = 0`, and the enabling `cr` write last, with no `cr` write in between; it completes exactly when the busy-wait does, returning the given peripheral and pins |
| Serial.BringupConfigures | baremetal-raspi/src/serial.rs:46-133 | from any prior state, a completed bring-up leaves the UART enabled with TX and RX on, 8-bit words, FIFO on, one stop bit, no parity, no break, DMA off, the listed `imsc` bits set, the listed interrupts cleared, nothing transmitted, and the divisor of 48 MHz at 9600 baud |
| Serial.ReplayQuiesce | baremetal-raspi/src/serial.rs:49-70 | the first two writes disable the UART and clear the oe/be/pe/fe/rt/tx/rx interrupts |
| Serial.ReplaySettings | baremetal-raspi/src/serial.rs:73-131 | the writes after the busy-wait program the divisor, the line control, the `imsc` bits and DMA, and enable the UART last |
| Serial.BringupConfiguresWhileDisabled | baremetal-raspi/src/serial.rs:49-131 | every write between the first and the last happens while the UART is disabled, and a stalled bring-up leaves it disabled |
| Serial.Free | baremetal-raspi/src/serial.rs:136-138 | returns the peripheral and the pin pair the driver holds, with no write |
| Serial.FreeAfterBringup | baremetal-raspi/src/serial.rs:46-138 | freeing the driver a bring-up produced gives back exactly the peripheral and pins that went in |
| Serial.Read | baremetal-raspi/src/serial.rs:162-185 | precedence overrun, then parity, then framing, then empty FIFO (WouldBlock), then the data byte, each as an if-and-only-if |
| Serial.ReadErrorsIgnoreFifo | baremetal-raspi/src/serial.rs:169-180 | a set error flag gives a hard error whatever the flag register says; with no error flag an empty FIFO gives WouldBlock; the break flag changes nothing |
| Serial.WriteAttempt | baremetal-raspi/src/serial.rs:191-203 | the flags are read once more straight after the first idle snapshot, and a write of the byte to `dr` happens exactly when that read has `txff` clear, otherwise WouldBlock with no write; never a hard error |
| Serial.BlockWrite | baremetal-raspi/src/serial.rs:143 | a finished `block!(write(b))` succeeded and wrote exactly `b` once; with the UART idle in the first snapshot and room in the FIFO in the second, it finishes after those two |
| Serial.WriteBytes | baremetal-raspi/src/serial.rs:141-147 | when it returns, the result is Ok and the writes are the buffer's bytes to `dr`, in order, each once; an empty buffer writes nothing; it starves only when the blocking write of the next byte starves on the snapshots left, having written a proper prefix; with every snapshot ready, two per byte are enough to send the whole buffer |
| Serial.DataWritesTransmit | baremetal-raspi/src/serial.rs:141-147 | replaying those writes appends the buffer to what the UART transmitted and changes nothing else |
| Serial.ReadBytes | baremetal-raspi/src/serial.rs:150-156 | on Ok, `buffer[..n]` holds the first `n` bytes received and `buffer[n..]` is unchanged; on Err, the error is the first hard error, the bytes read before it fill a prefix and the rest is unchanged; an out-of-bounds panic happens only when `n` exceeds the buffer length |

## Left out

- The entry points (`baremetal-raspi/src/main.rs`, `src/main.rs`), the sensor demo, and the `common-types` float codec are not part of this model. They are boot plumbing, a demo on an external HAL, and floating point.
- The volatile accessors of the peripheral access crate, and the bit layout of the UART fields. The UART fields are named values.
- What a set `imsc` bit does to the hardware. The source's comment calls the write "Mask all interrupts"; the model only records which bits are set.
- The side effect of reading `dr`. `read` reads `dr` before `fr` (serial.rs:164-167), and on a PL011 that read pops the receive FIFO, so a single waiting byte could be popped and then reported as WouldBlock. The model takes each `(dr, fr)` pair as an independent snapshot and cannot show this.
- Termination of the `block!` busy-waits, which is a hardware liveness question. Hardware reads are finite snapshot sequences, and running out of them is reported as starved.
- Rust ownership as a static guarantee. Each transition returns a fresh handle instead.
- The `with_<mode>` closures named in the module documentation. They are not implemented in the source.
- `PinExt::pin_id`, which returns the const index. A handle's `id` field plays that role.
- Which build profile the firmware is compiled with. Both are modelled through `Profile`.
- The `set`/`clr` registers and the level registers as separate hardware. A set or clear write is modelled as driving the level bit, so a later level read sees it. External signals on input pins are not modelled.
- Serial.Uart0: the pin pair's capability is a precondition, because the source's trait bounds make any other pair fail to compile.
- Gpio.SetHigh: the handle must be in Output mode, because the source defines `set_high`, `set_low`, `set_state`, `is_set_*`, `get_state` and `toggle` only on `Pin<N, Output>`. Likewise `is_high`/`is_low` exist only on `Pin<N, Input>`.

## Findings

| source | as written | input that shows it | evidently intended | confidence | as-written member | corrected member |
|---|---|---|---|---|---|---|
| baremetal-raspi/src/gpio/convert.rs:42-56 | `M::BITS << N * 3` for every bank, the absolute shift | pin 14 into AF0: a debug build panics (shift 42); a release build writes `1 << 12` to `gpfsel1`, which selects Output for pin 14 instead of AF0 | shift by `(N % 10) * 3`, the pin's offset inside its bank | high (not executed) | Convert.ModeWrite, Convert.UartTxPinRelease | Convert.ModeWriteIntended |
| baremetal-raspi/src/gpio/convert.rs:39-56 | `write_with_zero` of the shifted code, which zeroes the other nine fields of the bank | pin 2 to Output, then pin 3 to Output: pin 2 is back in Input | read-modify-write of the pin's 3-bit field only | medium (not executed) | Convert.BankNeighbourReset, Convert.AsWrittenBreaksHandleConsistency | Convert.ModeWriteModify, Convert.ModifyKeepsHandlesConsistent |

=== FILE: baud.dfy ===
/**
 The baud-rate divisor arithmetic the serial driver documents: the divisor is
 `clock / (16 * baud)`; its integer part goes to the integer divisor register and its
 fractional part, times 64 and rounded to the nearest integer, to the fractional divisor
 register. The driver writes the results for a 48 MHz UART clock and 9600 baud as
 constants.
 */
module Baud {

  /** UART reference clock the divisor is computed for (set by the boot configuration). */
  const UartClock: nat := 48_000_000

  /** Line rate the driver programs. */
  const BaudRate: nat := 9600

  datatype Divisor = Divisor(integer: nat, fraction: nat)

  /** `x / m` on naturals. Kept as a function of its own so that the solver treats the
      division as an opaque term inside `BaudDivisor`; the facts about it come from
      `DivisionBounds`. */
  function Quotient(x: nat, m: nat): nat
    requires m > 0
  {
    x / m
  }

  /** `x % m` on naturals, for the same reason as `Quotient`. */
  function Remainder(x: nat, m: nat): nat
    requires m > 0
  {
    x % m
  }

  /** The divisor in integers: `integer = clock / (16*baud)` and
      `fraction = round(64 * (clock % (16*baud)) / (16*baud))`, halves rounded up. The
      contract says `integer` is the whole part of `clock / (16*baud)` and that
      `integer + fraction/64` is within 1/128 of it. */
  function BaudDivisor(clock: nat, baud: nat): (d: Divisor)
    requires baud > 0
    ensures d.integer * (16 * baud) <= clock < (d.integer + 1) * (16 * baud)
    ensures d.fraction <= 64
    ensures -(16 * baud) <= 128 * clock - 2 * (16 * baud) * (64 * d.integer + d.fraction) < 16 * baud
  {
    var i := Quotient(clock, 16 * baud);
    var frac := Quotient(128 * Remainder(clock, 16 * baud) + 16 * baud, 2 * (16 * baud));
    DivisorBounds(clock, 16 * baud, i, frac);
    Divisor(i, frac)
  }

  lemma DivisorBounds(clock: nat, q: nat, i: nat, frac: nat)
    requires q > 0 && i == clock / q && frac == (128 * (clock % q) + q) / (2 * q)
    ensures i * q <= clock < (i + 1) * q
    ensures frac <= 64
    ensures -(q as int) <= 128 * clock - 2 * q * (64 * i + frac) < q
  {
    var rem := clock % q;
    DivisionBounds(clock, q);
    DivisionBounds(128 * rem + q, 2 * q);
    FractionBound(q, rem, frac);
    RoundingError(clock, q, i, rem, frac);
  }

  /** Euclidean division by a positive divisor: quotient and remainder. */
  lemma DivisionBounds(x: nat, m: nat)
    requires m > 0
    ensures x == (x / m) * m + x % m
    ensures 0 <= x % m < m
  {
  }

  /** A remainder below `q` gives a rounded fraction of at most 64. */
  lemma FractionBound(q: nat, rem: nat, frac: nat)
    requires q > 0 && rem < q
    requires (128 * rem + q) == ((128 * rem + q) / (2 * q)) * (2 * q) + (128 * rem + q) % (2 * q)
    requires frac == (128 * rem + q) / (2 * q)
    ensures frac <= 64
  {
  }

  /** Integer part and rounded fraction together are within half a 64th of the divisor. */
  lemma RoundingError(clock: int, q: int, i: int, rem: int, frac: int)
    requires q > 0 && rem >= 0 && rem < q && clock == i * q + rem
    requires 128 * rem + q == frac * (2 * q) + (128 * rem + q) % (2 * q)
    requires 0 <= (128 * rem + q) % (2 * q) < 2 * q
    ensures i * q <= clock < (i + 1) * q
    ensures -q <= 128 * clock - 2 * q * (64 * i + frac) < q
  {
    assert (i + 1) * q == i * q + q;
    assert 2 * q * (64 * i + frac) == 128 * (i * q) + frac * (2 * q);
  }

  /** The constants the driver writes, 312 and 32, are the divisor of 48 MHz at 9600 baud. */
  lemma ProgrammedDivisor()
    ensures BaudDivisor(UartClock, BaudRate) == Divisor(312, 32)
  {
  }

  /** At 115200 baud the same rule gives 26 and 3. */
  lemma Divisor115200()
    ensures BaudDivisor(UartClock, 115200) == Divisor(26, 3)
  {
  }
}

=== FILE: gpio.dfy ===
/**
 GPIO pin handles (`baremetal-raspi/src/gpio.rs`). A handle is a pin index and a mode
 tag; the source keeps both in the type, the model keeps them as values and states the
 operations that only one mode allows as preconditions on the tag. Level operations
 write a single bit of a set or clear register, in bank 0 for pins 0..31 and bank 1 for
 pins 32..53; level queries mask one bit of a level register.
 */
module Gpio {
  import opened Words
  import opened GpioRegisters

  /** The const generic `N: u8` that names a pin. */
  type PinId = n: nat | n < 256

  /** Number of pins the bank exposes, `0..=53`. */
  const PinCount: nat := 54

  datatype Mode = Input | Output | AF0 | AF1 | AF2 | AF3 | AF4 | AF5

  datatype Pin = Pin(id: PinId, mode: Mode)

  /** `embedded_hal::digital::v2::PinState`. */
  datatype PinState = Low | High

  /** The GPIO peripheral singleton that `split` consumes. */
  datatype GpioPeripheral = GpioPeripheral

  /** The level of pin `id`: bit `id % 32` of level register `id / 32`. */
  function LevelBit(f: GpioFile, id: nat): bool
    requires id < PinCount
  {
    Level(f, id / 32)[id % 32]
  }

  /** `f` with only the level of pin `id` changed to `v`. */
  function WithLevel(f: GpioFile, id: nat, v: bool): GpioFile
    requires id < PinCount
  {
    if id / 32 == 0 then f.(gplev0 := f.gplev0[id % 32 := v])
    else f.(gplev1 := f.gplev1[id % 32 := v])
  }

  /** The writes that drive pin `id` to `v` change that pin's level and nothing else. */
  lemma DriveEffect(f: GpioFile, id: nat, v: bool)
    requires id < PinCount
    ensures Replay(f, [GpioWrite(if v then SetRegisterOf(id / 32) else ClearRegisterOf(id / 32), OnlyBit(id % 32))])
            == WithLevel(f, id, v)
  {
    var w := GpioWrite(if v then SetRegisterOf(id / 32) else ClearRegisterOf(id / 32), OnlyBit(id % 32));
    assert Replay(f, [w]) == Replay(Apply(f, w), []);
    if v {
      OrOnlyBit(Level(f, id / 32), id % 32);
    } else {
      AndNotOnlyBit(Level(f, id / 32), id % 32);
    }
  }

  lemma DriveEffectAll(id: nat, v: bool)
    requires id < PinCount
    ensures forall f :: Replay(f, [GpioWrite(if v then SetRegisterOf(id / 32) else ClearRegisterOf(id / 32), OnlyBit(id % 32))])
                        == WithLevel(f, id, v)
  {
    forall f
      ensures Replay(f, [GpioWrite(if v then SetRegisterOf(id / 32) else ClearRegisterOf(id / 32), OnlyBit(id % 32))])
              == WithLevel(f, id, v)
    {
      DriveEffect(f, id, v);
    }
  }

  /** `Pin::_set_high`: a single-bit write to `gpset0` or `gpset1`. */
  function SetHighRaw(id: PinId): (r: Outcome<()>)
    ensures r.Done? <==> id < PinCount
    ensures r.Panic? ==> r.reason == NoSuchPin && r.writes == []
    ensures r.Done? ==> r.writes == [GpioWrite(SetRegisterOf(id / 32), OnlyBit(id % 32))]
    ensures r.Done? ==> forall f :: Replay(f, r.writes) == WithLevel(f, id, true)
  {
    DriveEffectAll(if id < PinCount then id else 0, true);
    if id <= 31 then Done((), [GpioWrite(GpSet0, OnlyBit(id))])
    else if id <= 53 then Done((), [GpioWrite(GpSet1, OnlyBit(id - 32))])
    else Panic(NoSuchPin, [])
  }

  /** `Pin::_set_low`: a single-bit write to `gpclr0` or `gpclr1`. */
  function SetLowRaw(id: PinId): (r: Outcome<()>)
    ensures r.Done? <==> id < PinCount
    ensures r.Panic? ==> r.reason == NoSuchPin && r.writes == []
    ensures r.Done? ==> r.writes == [GpioWrite(ClearRegisterOf(id / 32), OnlyBit(id % 32))]
    ensures r.Done? ==> forall f :: Replay(f, r.writes) == WithLevel(f, id, false)
  {
    DriveEffectAll(if id < PinCount then id else 0, false);
    if id <= 31 then Done((), [GpioWrite(GpClr0, OnlyBit(id))])
    else if id <= 53 then Done((), [GpioWrite(GpClr1, OnlyBit(id - 32))])
    else Panic(NoSuchPin, [])
  }

  /** `Pin::_set_state`: drive the pin to the requested level. */
  function SetStateRaw(id: PinId, s: PinState): (r: Outcome<()>)
    ensures r.Done? <==> id < PinCount
    ensures r.Panic? ==> r.reason == NoSuchPin && r.writes == []
    ensures r.Done? ==> r.writes == [GpioWrite(if s == High then SetRegisterOf(id / 32) else ClearRegisterOf(id / 32), OnlyBit(id % 32))]
    ensures r.Done? ==> |r.writes| == 1 && IsLevelWrite(r.writes[0].reg)
    ensures r.Done? ==> forall f :: Replay(f, r.writes) == WithLevel(f, id, s == High)
  {
    match s
    case Low => SetLowRaw(id)
    case High => SetHighRaw(id)
  }

  /** `Pin::_is_low`: masks the pin's bit of `gplev0` or `gplev1`; writes nothing. */
  function IsLowRaw(f: GpioFile, id: PinId): (r: Outcome<bool>)
    ensures r.Done? <==> id < PinCount
    ensures r.writes == []
    ensures r.Panic? ==> r.reason == NoSuchPin
    ensures r.Done? ==> r.value == !LevelBit(f, id)
  {
    if id <= 31 then
      MaskIsZeroIffBitClear(f.gplev0, id);
      Done(And(f.gplev0, OnlyBit(id)) == Zero(), [])
    else if id <= 53 then
      MaskIsZeroIffBitClear(f.gplev1, id - 32);
      Done(And(f.gplev1, OnlyBit(id - 32)) == Zero(), [])
    else Panic(NoSuchPin, [])
  }

  /** `Pin<N, Output>::set_high`. */
  function SetHigh(p: Pin): (r: Outcome<()>)
    requires p.mode == Output
    ensures r.Done? <==> p.id < PinCount
    ensures r.Panic? ==> r.reason == NoSuchPin && r.writes == []
    ensures r.Done? ==> |r.writes| == 1 && forall f :: Replay(f, r.writes) == WithLevel(f, p.id, true)
  {
    SetHighRaw(p.id)
  }

  /** `Pin<N, Output>::set_low`. */
  function SetLow(p: Pin): (r: Outcome<()>)
    requires p.mode == Output
    ensures r.Done? <==> p.id < PinCount
    ensures r.Panic? ==> r.reason == NoSuchPin && r.writes == []
    ensures r.Done? ==> |r.writes| == 1 && forall f :: Replay(f, r.writes) == WithLevel(f, p.id, false)
  {
    SetLowRaw(p.id)
  }

  /** `Pin<N, Output>::set_state`. */
  function SetState(p: Pin, s: PinState): (r: Outcome<()>)
    requires p.mode == Output
    ensures r.Done? <==> p.id < PinCount
    ensures r.Panic? ==> r.reason == NoSuchPin && r.writes == []
    ensures r.Done? ==> |r.writes| == 1 && forall f :: Replay(f, r.writes) == WithLevel(f, p.id, s == High)
  {
    SetStateRaw(p.id, s)
  }

  /** `Pin<N, Output>::is_set_low`. */
  function IsSetLow(f: GpioFile, p: Pin): (r: Outcome<bool>)
    requires p.mode == Output
    ensures r.Done? <==> p.id < PinCount
    ensures r.writes == []
    ensures r.Done? ==> r.value == !LevelBit(f, p.id)
  {
    IsLowRaw(f, p.id)
  }

  /** `Pin<N, Output>::is_set_high`: the negation of `is_set_low`. */
  function IsSetHigh(f: GpioFile, p: Pin): (r: Outcome<bool>)
    requires p.mode == Output
    ensures r.Done? <==> p.id < PinCount
    ensures r.writes == []
    ensures r.Done? ==> r.value == LevelBit(f, p.id)
  {
    match IsSetLow(f, p)
    case Done(low, ws) => Done(!low, ws)
    case Panic(why, ws) => Panic(why, ws)
  }

  /** `Pin<N, Output>::get_state`. */
  function GetState(f: GpioFile, p: Pin): (r: Outcome<PinState>)
    requires p.mode == Output
    ensures r.Done? <==> p.id < PinCount
    ensures r.writes == []
    ensures r.Done? ==> (r.value == High <==> LevelBit(f, p.id))
  {
    match IsSetLow(f, p)
    case Done(low, ws) => Done(if low then Low else High, ws)
    case Panic(why, ws) => Panic(why, ws)
  }

  /** `Pin<N, Output>::toggle`: read the level, then drive the opposite one. */
  function Toggle(f: GpioFile, p: Pin): (r: Outcome<()>)
    requires p.mode == Output
    ensures r.Done? <==> p.id < PinCount
    ensures r.Panic? ==> r.reason == NoSuchPin && r.writes == []
    ensures r.Done? ==> |r.writes| == 1 && Replay(f, r.writes) == WithLevel(f, p.id, !LevelBit(f, p.id))
  {
    match IsSetLow(f, p)
    case Done(low, _) => if low then SetHigh(p) else SetLow(p)
    case Panic(why, ws) => Panic(why, ws)
  }

  /** `Pin<N, Input>::is_low`. */
  function IsLow(f: GpioFile, p: Pin): (r: Outcome<bool>)
    requires p.mode == Input
    ensures r.Done? <==> p.id < PinCount
    ensures r.writes == []
    ensures r.Done? ==> r.value == !LevelBit(f, p.id)
  {
    IsLowRaw(f, p.id)
  }

  /** `Pin<N, Input>::is_high`: the negation of `is_low`. */
  function IsHigh(f: GpioFile, p: Pin): (r: Outcome<bool>)
    requires p.mode == Input
    ensures r.Done? <==> p.id < PinCount
    ensures r.writes == []
    ensures r.Done? ==> r.value == LevelBit(f, p.id)
  {
    match IsLow(f, p)
    case Done(low, ws) => Done(!low, ws)
    case Panic(why, ws) => Panic(why, ws)
  }

  /** `GpioExt::split`: consumes the peripheral and hands out one Input handle per pin;
      it writes no register, which the result type records by carrying no writes. */
  function Split(g: GpioPeripheral): (pins: seq<Pin>)
    ensures |pins| == PinCount
    ensures forall i | 0 <= i < |pins| :: pins[i].id == i && pins[i].mode == Input
  {
    seq(PinCount, i requires 0 <= i < PinCount => Pin(i, Input))
  }

  /** Some handle in `pins` is for pin `id`. */
  predicate HasHandle(pins: seq<Pin>, id: nat)
  {
    exists i | 0 <= i < |pins| :: pins[i].id == id
  }

  /** Every pin index 0..53 has exactly one handle, and no handle names another index. */
  lemma SplitOneHandlePerPin(g: GpioPeripheral)
    ensures forall id | 0 <= id < PinCount :: HasHandle(Split(g), id)
    ensures forall i, j | 0 <= i < |Split(g)| && 0 <= j < |Split(g)| && Split(g)[i].id == Split(g)[j].id :: i == j
    ensures forall i | 0 <= i < |Split(g)| :: Split(g)[i].id < PinCount
  {
    var pins := Split(g);
    forall id | 0 <= id < PinCount
      ensures HasHandle(pins, id)
    {
      assert pins[id].id == id;
    }
  }

  /** After `set_high` the pin reads as not low, and after `set_low` it reads as low. */
  lemma SetThenRead(f: GpioFile, p: Pin)
    requires p.mode == Output && p.id < PinCount
    ensures IsSetLow(Replay(f, SetHigh(p).writes), p) == Done(false, [])
    ensures IsSetLow(Replay(f, SetLow(p).writes), p) == Done(true, [])
  {
  }

  /** Toggling flips `is_set_low`, and toggling twice restores the whole register state. */
  lemma ToggleTwiceRestores(f: GpioFile, p: Pin)
    requires p.mode == Output && p.id < PinCount
    ensures IsSetLow(Replay(f, Toggle(f, p).writes), p).value == !IsSetLow(f, p).value
    ensures var f1 := Replay(f, Toggle(f, p).writes);
            Replay(f1, Toggle(f1, p).writes) == f
  {
    var f1 := Replay(f, Toggle(f, p).writes);
    var k := p.id % 32;
    if p.id / 32 == 0 {
      assert f1.gplev0 == f.gplev0[k := !f.gplev0[k]];
      assert f1.gplev0[k := !f1.gplev0[k]] == f.gplev0;
    } else {
      assert f1.gplev1 == f.gplev1[k := !f.gplev1[k]];
      assert f1.gplev1[k := !f1.gplev1[k]] == f.gplev1;
    }
  }

  /** The paired queries are negations of each other. */
  lemma QueriesAreNegations(f: GpioFile, p: Pin)
    requires p.id < PinCount
    ensures p.mode == Output ==> IsSetHigh(f, p).value == !IsSetLow(f, p).value
    ensures p.mode == Output ==> (GetState(f, p).value == Low <==> IsSetLow(f, p).value)
    ensures p.mode == Input ==> IsHigh(f, p).value == !IsLow(f, p).value
  {
  }

  /** `set_state` dispatches to `set_low` and `set_high`. */
  lemma SetStateDispatches(p: Pin)
    requires p.mode == Output
    ensures SetState(p, Low) == SetLow(p)
    ensures SetState(p, High) == SetHigh(p)
  {
  }
}

=== FILE: gpio_convert.dfy ===
/**
 Mode switching (`baremetal-raspi/src/gpio/convert.rs`). Every mode has a fixed 3-bit
 function-select code; switching pin `N` writes the code, shifted left by `N * 3`, to the
 function-select register of the pin's bank with every other bit zero, and returns a
 handle for the same pin in the new mode.

 The operations here follow the source as written. The shift `N * 3` is the in-bank
 offset only for pins 0..9; the definitions the source evidently intended, a shift of
 `(N % 10) * 3` and a write that keeps the other pins of the bank, are given beside it.
 */
module Convert {
  import opened Optional
  import opened Words
  import opened GpioRegisters
  import opened Gpio

  /** `PinMode::BITS`: the function-select code of each mode. */
  function ModeCode(m: Mode): (c: nat)
    ensures c < 8
  {
    match m
    case Input => 0  // 0b000
    case Output => 1  // 0b001
    case AF0 => 4  // 0b100
    case AF1 => 5  // 0b101
    case AF2 => 6  // 0b110
    case AF3 => 7  // 0b111
    case AF4 => 3  // 0b011
    case AF5 => 2  // 0b010
  }

  /** The mode a function-select code selects; every 3-bit code selects one. */
  function ModeOf(c: nat): Mode
    requires c < 8
  {
    if c == 0 then Input
    else if c == 1 then Output
    else if c == 2 then AF5
    else if c == 3 then AF4
    else if c == 4 then AF0
    else if c == 5 then AF1
    else if c == 6 then AF2
    else AF3
  }

  /** Decoding a mode's code gives the mode back. */
  lemma ModeOfModeCode(m: Mode)
    ensures ModeOf(ModeCode(m)) == m
  {
  }

  /** Encoding the mode of a code gives the code back: the table uses all eight codes. */
  lemma ModeCodeOfMode(c: nat)
    requires c < 8
    ensures ModeCode(ModeOf(c)) == c
  {
  }

  /** The eight codes are pairwise distinct. */
  lemma ModeCodesDistinct(m1: Mode, m2: Mode)
    ensures ModeCode(m1) == ModeCode(m2) <==> m1 == m2
  {
    if ModeCode(m1) == ModeCode(m2) {
      ModeOfModeCode(m1);
      ModeOfModeCode(m2);
    }
  }

  /** `M::BITS` as a `u32`. */
  function ModeBits(m: Mode): Word
  {
    CodeWord(ModeCode(m))
  }

  /** The mode the registers give pin `id`: its field in its bank's function-select register. */
  function PinModeIn(f: GpioFile, id: nat): Mode
    requires id < PinCount
  {
    ModeOf(FieldCode(Fsel(f, id / 10), id % 10))
  }

  /** `w` holds code `c` in field `slot` and is zero everywhere else. */
  predicate PlacesCode(w: Word, slot: nat, c: nat)
    requires slot < 10
  {
    && FieldCode(w, slot) == c
    && forall i | 0 <= i < 32 && (i < 3 * slot || i >= 3 * slot + 3) :: !w[i]
  }

  /** The bank selection of `mode`: which function-select register pin `id` lives in. */
  function FselRegister(id: PinId): (r: Option<GpioReg>)
    ensures r.Some? <==> id < PinCount
    ensures r.Some? ==> r.value == FselRegisterOf(id / 10)
  {
    if id <= 9 then Some(GpFsel0)
    else if id <= 19 then Some(GpFsel1)
    else if id <= 29 then Some(GpFsel2)
    else if id <= 39 then Some(GpFsel3)
    else if id <= 49 then Some(GpFsel4)
    else if id <= 53 then Some(GpFsel5)
    else None
  }

  /** `Pin::mode::<M>` as written: `M::BITS << N * 3` into the bank's register. */
  function ModeWrite(id: PinId, m: Mode, profile: Profile): (r: Outcome<()>)
    ensures r.Panic? ==> r.writes == []
    ensures r.Panic? && r.reason == NoSuchPin <==> id >= PinCount
    ensures r.Panic? && r.reason == ShiftOverflow <==> id < PinCount && id * 3 >= 32 && profile == Debug
    ensures r.Done? ==> |r.writes| == 1 && r.writes[0].reg == FselRegisterOf(id / 10)
  {
    match FselRegister(id)
    case None => Panic(NoSuchPin, [])
    case Some(reg) =>
      match Shl(ModeBits(m), id * 3, profile)
      case None => Panic(ShiftOverflow, [])
      case Some(w) => Done((), [GpioWrite(reg, w)])
  }

  /** The code shifted to field `slot` sits there and nowhere else. */
  lemma ShiftedCodePlaced(c: nat, slot: nat)
    requires c < 8 && slot < 10
    ensures PlacesCode(ShiftLeft(CodeWord(c), 3 * slot), slot, c)
  {
    var w := ShiftLeft(CodeWord(c), 3 * slot);
    FieldFromCodeBits(w, slot, c);
  }

  /** A nonzero code shifted by anything other than the field's offset does not read back
      from that field. */
  lemma ShiftedCodeMisplaced(c: nat, s: nat, slot: nat)
    requires 0 < c < 8 && s < 32 && slot < 10 && s != 3 * slot
    ensures FieldCode(ShiftLeft(CodeWord(c), s), slot) != c
  {
    var w := ShiftLeft(CodeWord(c), s);
    var o := 3 * slot;
    CodeBitsDetermineCode(c, 0);
    CodeBitsDetermineCode(c, FieldCode(w, slot));
  }

  /** For pins 0..9 the source's shift is right: the code lands in the pin's field of
      `gpfsel0` and every other bit is zero, under either profile. */
  lemma ModeWriteBankZero(id: PinId, m: Mode, profile: Profile)
    requires id <= 9
    ensures var r := ModeWrite(id, m, profile);
            r.Done? && r.writes[0].reg == GpFsel0 && PlacesCode(r.writes[0].bits, id, ModeCode(m))
  {
    ShiftedCodePlaced(ModeCode(m), id);
  }

  /** For pins 10..53 the source's shift misses the pin's field for every mode other than
      Input: the write panics (overflow checks on, pins 11..53) or puts something else
      there. */
  lemma ModeWriteMisplaced(id: PinId, m: Mode, profile: Profile)
    requires 10 <= id < PinCount && m != Input
    ensures var r := ModeWrite(id, m, profile);
            r.Panic? || FieldCode(r.writes[0].bits, id % 10) != ModeCode(m)
  {
    var r := ModeWrite(id, m, profile);
    if r.Done? {
      var s := if id * 3 < 32 then id * 3 else (id * 3) % 32;
      assert r.writes[0].bits == ShiftLeft(ModeBits(m), s);
      assert s != 3 * (id % 10);
      ShiftedCodeMisplaced(ModeCode(m), s, id % 10);
    }
  }

  /** The source's mode write puts a non-Input code in the pin's own field exactly for
      the pins of bank 0. */
  lemma ModeWritePlacesIffBankZero(id: PinId, m: Mode, profile: Profile)
    requires id < PinCount && m != Input
    ensures (var r := ModeWrite(id, m, profile);
             r.Done? && FieldCode(r.writes[0].bits, id % 10) == ModeCode(m)) <==> id <= 9
  {
    if id <= 9 {
      ModeWriteBankZero(id, m, profile);
    } else {
      ModeWriteMisplaced(id, m, profile);
    }
  }

  /** Pin 14 into AF0, which the UART on pins 14/15 needs: with overflow checks the shift
      by 42 panics. */
  lemma UartTxPinDebug()
    ensures ModeWrite(14, AF0, Debug) == Panic(ShiftOverflow, [])
  {
  }

  /** Pin 14 into AF0 without overflow checks: the shift by 42 becomes a shift by 10 and
      `gpfsel1` receives `1 << 12`, which is the code of Output in pin 14's field. */
  lemma UartTxPinRelease()
    ensures ModeWrite(14, AF0, Release) == Done((), [GpioWrite(GpFsel1, OnlyBit(12))])
    ensures FieldCode(OnlyBit(12), 14 % 10) == ModeCode(Output)
  {
    assert ShiftLeft(ModeBits(AF0), 10) == OnlyBit(12) by {
      assert forall i | 0 <= i < 32 :: ShiftLeft(ModeBits(AF0), 10)[i] == OnlyBit(12)[i];
    }
  }

  /** The mode write with the in-bank offset `(N % 10) * 3` the source evidently intended. */
  function ModeWriteIntended(id: PinId, m: Mode): (r: Outcome<()>)
    ensures r.Done? <==> id < PinCount
    ensures r.Panic? ==> r == Panic(NoSuchPin, [])
    ensures r.Done? ==> |r.writes| == 1 && r.writes[0].reg == FselRegisterOf(id / 10)
    ensures r.Done? ==> PlacesCode(r.writes[0].bits, id % 10, ModeCode(m))
  {
    match FselRegister(id)
    case None => Panic(NoSuchPin, [])
    case Some(reg) =>
      ShiftedCodePlaced(ModeCode(m), id % 10);
      Done((), [GpioWrite(reg, ShiftLeft(ModeBits(m), (id % 10) * 3))])
  }

  /** The intended write and the written one coincide on bank 0. */
  lemma IntendedAgreesOnBankZero(id: PinId, m: Mode, profile: Profile)
    requires id <= 9
    ensures ModeWrite(id, m, profile) == ModeWriteIntended(id, m)
  {
  }

  /** The effect of writing `w` to function-select register `bank`. */
  lemma FselWriteEffect(f: GpioFile, bank: nat, w: Word)
    requires bank < 6
    ensures var g := Replay(f, [GpioWrite(FselRegisterOf(bank), w)]);
            && g.gplev0 == f.gplev0 && g.gplev1 == f.gplev1
            && forall b | 0 <= b < 6 :: Fsel(g, b) == if b == bank then w else Fsel(f, b)
  {
    assert Replay(f, [GpioWrite(FselRegisterOf(bank), w)]) == Apply(f, GpioWrite(FselRegisterOf(bank), w));
  }

  /** A mode change of pin 3 after one of pin 2 (both in bank 0, where the shift is right)
      leaves pin 2 reading as Input although its handle says Output: the second write
      zeroes the rest of `gpfsel0`. */
  lemma BankNeighbourReset(f: GpioFile, profile: Profile)
    ensures var f1 := Replay(f, ModeWrite(2, Output, profile).writes);
            var f2 := Replay(f1, ModeWrite(3, Output, profile).writes);
            PinModeIn(f1, 2) == Output && PinModeIn(f2, 3) == Output && PinModeIn(f2, 2) == Input
  {
    var f1 := Replay(f, ModeWrite(2, Output, profile).writes);
    var f2 := Replay(f1, ModeWrite(3, Output, profile).writes);
    ModeWriteBankZero(2, Output, profile);
    ModeWriteBankZero(3, Output, profile);
    FselWriteEffect(f, 0, ModeWrite(2, Output, profile).writes[0].bits);
    FselWriteEffect(f1, 0, ModeWrite(3, Output, profile).writes[0].bits);
    var w := Fsel(f2, 0);
    assert !w[6] && !w[7] && !w[8];
  }

  /** `w` with field `slot` replaced by code `c`. */
  function WithField(w: Word, slot: nat, c: nat): Word
    requires slot < 10 && c < 8
  {
    seq(32, i requires 0 <= i < 32 => if 3 * slot <= i < 3 * slot + 3 then CodeBit(c, i - 3 * slot) else w[i])
  }

  /** A read-modify-write of the pin's field: the mode write that keeps the other pins of
      the bank in their modes. */
  function ModeWriteModify(f: GpioFile, id: PinId, m: Mode): (r: Outcome<()>)
    ensures r.Done? <==> id < PinCount
    ensures r.Panic? ==> r == Panic(NoSuchPin, [])
    ensures r.Done? ==> |r.writes| == 1 && r.writes[0].reg == FselRegisterOf(id / 10)
    ensures r.Done? ==> PinModeIn(Replay(f, r.writes), id) == m
    ensures r.Done? ==> forall j | 0 <= j < PinCount && j != id :: PinModeIn(Replay(f, r.writes), j) == PinModeIn(f, j)
  {
    match FselRegister(id)
    case None => Panic(NoSuchPin, [])
    case Some(reg) =>
      var w := WithField(Fsel(f, id / 10), id % 10, ModeCode(m));
      ModifyEffect(f, id, m);
      Done((), [GpioWrite(reg, w)])
  }

  lemma ModifyEffect(f: GpioFile, id: PinId, m: Mode)
    requires id < PinCount
    ensures var g := Replay(f, [GpioWrite(FselRegisterOf(id / 10), WithField(Fsel(f, id / 10), id % 10, ModeCode(m)))]);
            && PinModeIn(g, id) == m
            && g.gplev0 == f.gplev0 && g.gplev1 == f.gplev1
            && forall j | 0 <= j < PinCount && j != id :: PinModeIn(g, j) == PinModeIn(f, j)
  {
    var w := WithField(Fsel(f, id / 10), id % 10, ModeCode(m));
    var g := Replay(f, [GpioWrite(FselRegisterOf(id / 10), w)]);
    FselWriteEffect(f, id / 10, w);
    FieldFromCodeBits(w, id % 10, ModeCode(m));
    ModeOfModeCode(m);
    forall j | 0 <= j < PinCount && j != id
      ensures PinModeIn(g, j) == PinModeIn(f, j)
    {
      if j / 10 == id / 10 {
        assert j % 10 != id % 10;
        assert FieldCode(w, j % 10) == FieldCode(Fsel(f, id / 10), j % 10);
      }
    }
  }

  /** Every handle in `pins` names a pin whose registers hold the handle's mode. */
  predicate Consistent(f: GpioFile, pins: seq<Pin>)
  {
    forall i | 0 <= i < |pins| :: pins[i].id < PinCount && PinModeIn(f, pins[i].id) == pins[i].mode
  }

  /** No two handles in `pins` name the same pin. */
  predicate DistinctPins(pins: seq<Pin>)
  {
    forall i, j | 0 <= i < |pins| && 0 <= j < |pins| && i != j :: pins[i].id != pins[j].id
  }

  /** With the read-modify-write, converting one of a set of distinct handles keeps every
      handle's mode in agreement with the registers. */
  lemma ModifyKeepsHandlesConsistent(f: GpioFile, pins: seq<Pin>, k: nat, m: Mode)
    requires Consistent(f, pins) && DistinctPins(pins) && k < |pins|
    ensures var r := ModeWriteModify(f, pins[k].id, m);
            r.Done? && Consistent(Replay(f, r.writes), pins[k := Pin(pins[k].id, m)])
  {
    var r := ModeWriteModify(f, pins[k].id, m);
    var g := Replay(f, r.writes);
    var q := pins[k := Pin(pins[k].id, m)];
    forall i | 0 <= i < |q|
      ensures q[i].id < PinCount && PinModeIn(g, q[i].id) == q[i].mode
    {
      if i != k {
        assert pins[i].id != pins[k].id;
      }
    }
  }

  /** With the source's write, two distinct handles in one consistent set can fall out of
      agreement with the registers after a single mode change. */
  lemma AsWrittenBreaksHandleConsistency(f: GpioFile, profile: Profile)
    requires PinModeIn(f, 2) == Output && PinModeIn(f, 3) == Input
    ensures Consistent(f, [Pin(2, Output), Pin(3, Input)])
    ensures var g := Replay(f, ModeWrite(3, Output, profile).writes);
            !Consistent(g, [Pin(2, Output), Pin(3, Output)])
  {
    var g := Replay(f, ModeWrite(3, Output, profile).writes);
    ModeWriteBankZero(3, Output, profile);
    FselWriteEffect(f, 0, ModeWrite(3, Output, profile).writes[0].bits);
    var w := Fsel(g, 0);
    assert !w[6] && !w[7] && !w[8];
    assert PinModeIn(g, 2) == Input;
    assert [Pin(2, Output), Pin(3, Output)][0] == Pin(2, Output);
  }

  /** `Pin::into_mode`: one function-select write, then a handle for the same pin in the
      target mode. */
  function IntoMode(p: Pin, m: Mode, profile: Profile): (r: Outcome<Pin>)
    ensures r.Done? <==> p.id < PinCount && (p.id * 3 < 32 || profile == Release)
    ensures r.Done? ==> r.value == Pin(p.id, m)
    ensures r.Done? ==> |r.writes| == 1 && r.writes[0].reg == FselRegisterOf(p.id / 10)
    ensures r.Done? && (p.id <= 9 || m == Input) ==> forall f :: PinModeIn(Replay(f, r.writes), p.id) == m
    ensures r.Done? && p.id >= 10 && m != Input ==> forall f :: PinModeIn(Replay(f, r.writes), p.id) != m
    ensures r.Panic? ==> r.writes == []
  {
    match ModeWrite(p.id, m, profile)
    case Panic(why, ws) => Panic(why, ws)
    case Done(_, ws) =>
      ModeWriteSetsModeIff(p.id, m, profile, []);
      assert [] + ws == ws;
      Done(Pin(p.id, m), ws)
  }

  /** A trace ending in a write to pin `id`'s function-select register leaves the pin in
      mode `m` exactly when that write holds the code of `m` in the pin's field, whatever
      came before. */
  lemma FselWriteMode(id: nat, ws1: seq<GpioWrite>, ws2: seq<GpioWrite>, m: Mode)
    requires id < PinCount
    requires |ws2| == 1 && ws2[0].reg == FselRegisterOf(id / 10)
    ensures forall f :: PinModeIn(Replay(f, ws1 + ws2), id) == m <==> FieldCode(ws2[0].bits, id % 10) == ModeCode(m)
  {
    forall f
      ensures PinModeIn(Replay(f, ws1 + ws2), id) == m <==> FieldCode(ws2[0].bits, id % 10) == ModeCode(m)
    {
      ReplayConcat(f, ws1, ws2);
      var g := Replay(f, ws1);
      assert ws2 == [GpioWrite(FselRegisterOf(id / 10), ws2[0].bits)];
      FselWriteEffect(g, id / 10, ws2[0].bits);
      ModeOfModeCode(m);
      ModeCodeOfMode(FieldCode(ws2[0].bits, id % 10));
    }
  }

  /** Writing the Input code (zero) leaves zero in every field, wherever the shift puts it. */
  lemma ModeWriteInputZero(id: PinId, profile: Profile)
    requires id < PinCount && ModeWrite(id, Input, profile).Done?
    ensures FieldCode(ModeWrite(id, Input, profile).writes[0].bits, id % 10) == ModeCode(Input)
  {
    var r := ModeWrite(id, Input, profile);
    var s := if id * 3 < 32 then id * 3 else (id * 3) % 32;
    assert r.writes[0].bits == ShiftLeft(ModeBits(Input), s);
    assert forall i | 0 <= i < 32 :: !ModeBits(Input)[i];
  }

  /** Whatever came before it, the source's mode write leaves pin `id` in mode `m` exactly
      when the pin is in bank 0 or `m` is Input (whose code is zero). */
  lemma ModeWriteSetsModeIff(id: PinId, m: Mode, profile: Profile, ws1: seq<GpioWrite>)
    requires id < PinCount && ModeWrite(id, m, profile).Done?
    ensures forall f :: PinModeIn(Replay(f, ws1 + ModeWrite(id, m, profile).writes), id) == m <==> (id <= 9 || m == Input)
  {
    var ws := ModeWrite(id, m, profile).writes;
    if id <= 9 {
      ModeWriteBankZero(id, m, profile);
    } else if m == Input {
      ModeWriteInputZero(id, profile);
    } else {
      ModeWriteMisplaced(id, m, profile);
    }
    FselWriteMode(id, ws1, ws, m);
  }

  /** `Pin::into_input`. */
  function IntoInput(p: Pin, profile: Profile): (r: Outcome<Pin>)
    ensures r.Done? <==> p.id < PinCount && (p.id * 3 < 32 || profile == Release)
    ensures r.Done? ==> r.value == Pin(p.id, Input) && |r.writes| == 1 && r.writes[0].reg == FselRegisterOf(p.id / 10)
    ensures r.Done? ==> forall f :: PinModeIn(Replay(f, r.writes), p.id) == Input
  {
    IntoMode(p, Input, profile)
  }

  /** `Pin::into_output`. */
  function IntoOutput(p: Pin, profile: Profile): (r: Outcome<Pin>)
    ensures r.Done? <==> p.id < PinCount && (p.id * 3 < 32 || profile == Release)
    ensures r.Done? ==> r.value == Pin(p.id, Output) && |r.writes| == 1 && r.writes[0].reg == FselRegisterOf(p.id / 10)
    ensures r.Done? && p.id <= 9 ==> forall f :: PinModeIn(Replay(f, r.writes), p.id) == Output
    ensures r.Done? && p.id >= 10 ==> forall f :: PinModeIn(Replay(f, r.writes), p.id) != Output
  {
    IntoMode(p, Output, profile)
  }

  /** `Pin::into_output_in_state`: the level write, then the function-select write. */
  function IntoOutputInState(p: Pin, s: PinState, profile: Profile): (r: Outcome<Pin>)
    ensures r.Done? <==> p.id < PinCount && (p.id * 3 < 32 || profile == Release)
    ensures r.Done? ==> r.value == Pin(p.id, Output)
    ensures r.Done? ==> |r.writes| == 2 && IsLevelWrite(r.writes[0].reg) && r.writes[1].reg == FselRegisterOf(p.id / 10)
    ensures r.Done? ==> forall f :: LevelBit(Replay(f, r.writes), p.id) == (s == High)
    ensures r.Done? && p.id <= 9 ==> forall f :: PinModeIn(Replay(f, r.writes), p.id) == Output
    ensures r.Done? && p.id >= 10 ==> forall f :: PinModeIn(Replay(f, r.writes), p.id) != Output
    ensures r.Panic? && r.reason == ShiftOverflow ==> |r.writes| == 1 && IsLevelWrite(r.writes[0].reg)
    ensures r.Panic? && r.reason == NoSuchPin ==> r.writes == []
    ensures r.Done? || r.reason == ShiftOverflow ==>
              && p.id < PinCount
              && r.writes[0] == GpioWrite(if s == High then SetRegisterOf(p.id / 32) else ClearRegisterOf(p.id / 32), OnlyBit(p.id % 32))
              && forall f :: Replay(f, r.writes[..1]) == WithLevel(f, p.id, s == High)
  {
    match SetStateRaw(p.id, s)
    case Panic(why, ws) => Panic(why, ws)
    case Done(_, ws1) =>
      match IntoMode(p, Output, profile)
      case Panic(why, ws2) => Panic(why, ws1 + ws2)
      case Done(q, ws2) =>
        LevelSurvivesFselWrite(p.id, ws1, ws2, s == High);
        ModeWriteSetsModeIff(p.id, Output, profile, ws1);
        Done(q, ws1 + ws2)
  }

  lemma LevelSurvivesFselWrite(id: nat, ws1: seq<GpioWrite>, ws2: seq<GpioWrite>, v: bool)
    requires id < PinCount
    requires forall f :: Replay(f, ws1) == WithLevel(f, id, v)
    requires |ws2| == 1 && IsFselRegister(ws2[0].reg)
    ensures forall f :: LevelBit(Replay(f, ws1 + ws2), id) == v
  {
    forall f
      ensures LevelBit(Replay(f, ws1 + ws2), id) == v
    {
      ReplayConcat(f, ws1, ws2);
      var g := Replay(f, ws1);
      assert Replay(g, ws2) == Apply(g, ws2[0]);
      ApplySeparatesBanks(g, ws2[0]);
    }
  }

  /** The alternate-function mode `into_alternate_fnK` converts to; the generated family
      covers K = 0..4 only (`seq!(AFN in 0..5)`). */
  function AlternateMode(k: nat): (m: Mode)
    requires k < 5
    ensures m != Input && m != Output && m != AF5
    ensures ModeCode(m) == [4, 5, 6, 7, 3][k]
  {
    [AF0, AF1, AF2, AF3, AF4][k]
  }

  /** `Pin::into_alternate_fnK` for K in 0..4. */
  function IntoAlternate(p: Pin, k: nat, profile: Profile): (r: Outcome<Pin>)
    requires k < 5
    ensures r.Done? <==> p.id < PinCount && (p.id * 3 < 32 || profile == Release)
    ensures r.Done? ==> r.value == Pin(p.id, AlternateMode(k)) && |r.writes| == 1 && r.writes[0].reg == FselRegisterOf(p.id / 10)
    ensures r.Done? ==> r.value.mode != AF5 && r.value.mode != Input && r.value.mode != Output
    ensures r.Done? && p.id <= 9 ==> forall f :: PinModeIn(Replay(f, r.writes), p.id) == AlternateMode(k)
    ensures r.Done? && p.id >= 10 ==> forall f :: PinModeIn(Replay(f, r.writes), p.id) != AlternateMode(k)
  {
    IntoMode(p, AlternateMode(k), profile)
  }

  /** The firmware's `p14.into_alternate_fn0()` for the UART's TX line: a debug build
      panics; a release build hands back an AF0 handle while the registers put pin 14 in
      Output mode. */
  lemma UartTxPinIntoAlternate(f: GpioFile)
    ensures IntoAlternate(Pin(14, Input), 0, Debug) == Panic(ShiftOverflow, [])
    ensures var r := IntoAlternate(Pin(14, Input), 0, Release);
            && r == Done(Pin(14, AF0), [GpioWrite(GpFsel1, OnlyBit(12))])
            && PinModeIn(Replay(f, r.writes), 14) == Output
  {
    UartTxPinRelease();
    FselWriteMode(14, [], [GpioWrite(GpFsel1, OnlyBit(12))], Output);
    assert [] + [GpioWrite(GpFsel1, OnlyBit(12))] == [GpioWrite(GpFsel1, OnlyBit(12))];
  }

  /** Some `into_alternate_fnK` converts to `m`. */
  predicate HasAlternateFn(m: Mode)
  {
    exists k | 0 <= k < 5 :: AlternateMode(k) == m
  }

  /** AF5 is reached only through `into_mode`: each of AF0..AF4 has its own
      `into_alternate_fnK`, AF5 has none. */
  lemma AlternateFamilyOmitsAf5()
    ensures forall m :: HasAlternateFn(m) <==> m in {AF0, AF1, AF2, AF3, AF4}
  {
    assert AlternateMode(0) == AF0 && AlternateMode(1) == AF1 && AlternateMode(2) == AF2;
    assert AlternateMode(3) == AF3 && AlternateMode(4) == AF4;
  }
}

=== FILE: gpio_registers.dfy ===
/**
 The GPIO register bank as the drivers see it: six function-select registers (ten pins
 each, three bits per pin), two write-only set registers and two write-only clear
 registers (32 pins each), and two level registers. A driver step is described by the
 ordered list of register writes it performs; the register state after the step is the
 state before it with those writes replayed.

 Register model: a write to a function-select register replaces its contents; a write to
 `gpset0/1` drives every pin whose bit is 1 high, and a write to `gpclr0/1` drives every
 pin whose bit is 1 low, which shows in the matching level register; bits that are 0 have
 no effect. The set/clear registers store nothing, and the level registers ignore writes.
 */
module GpioRegisters {
  import opened Words

  datatype GpioReg =
    | GpFsel0 | GpFsel1 | GpFsel2 | GpFsel3 | GpFsel4 | GpFsel5
    | GpSet0 | GpSet1
    | GpClr0 | GpClr1
    | GpLev0 | GpLev1

  /** The registers that hold state. */
  datatype GpioFile = GpioFile(
    gpfsel0: Word, gpfsel1: Word, gpfsel2: Word, gpfsel3: Word, gpfsel4: Word, gpfsel5: Word,
    gplev0: Word, gplev1: Word)

  datatype GpioWrite = GpioWrite(reg: GpioReg, bits: Word)

  /** Why a driver step stopped with `panic!`: an index with no pin behind it, or a
      shift amount of 32 or more under overflow checks. */
  datatype PanicReason = NoSuchPin | ShiftOverflow

  /** The result of a driver step: its value and the writes it performed, or a panic
      together with the writes that happened before it. */
  datatype Outcome<T> =
    | Done(value: T, writes: seq<GpioWrite>)
    | Panic(reason: PanicReason, writes: seq<GpioWrite>)

  /** Function-select register of bank `bank` (pins `10*bank .. 10*bank+9`). */
  function FselRegisterOf(bank: nat): GpioReg
    requires bank < 6
  {
    [GpFsel0, GpFsel1, GpFsel2, GpFsel3, GpFsel4, GpFsel5][bank]
  }

  /** Contents of function-select register `bank`. */
  function Fsel(f: GpioFile, bank: nat): Word
    requires bank < 6
  {
    [f.gpfsel0, f.gpfsel1, f.gpfsel2, f.gpfsel3, f.gpfsel4, f.gpfsel5][bank]
  }

  /** Set register of bank `bank` (pins `32*bank ..`). */
  function SetRegisterOf(bank: nat): GpioReg
    requires bank < 2
  {
    if bank == 0 then GpSet0 else GpSet1
  }

  /** Clear register of bank `bank`. */
  function ClearRegisterOf(bank: nat): GpioReg
    requires bank < 2
  {
    if bank == 0 then GpClr0 else GpClr1
  }

  /** Contents of level register `bank`. */
  function Level(f: GpioFile, bank: nat): Word
    requires bank < 2
  {
    if bank == 0 then f.gplev0 else f.gplev1
  }

  predicate IsFselRegister(r: GpioReg)
  {
    r.GpFsel0? || r.GpFsel1? || r.GpFsel2? || r.GpFsel3? || r.GpFsel4? || r.GpFsel5?
  }

  predicate IsLevelWrite(r: GpioReg)
  {
    r.GpSet0? || r.GpSet1? || r.GpClr0? || r.GpClr1?
  }

  /** The effect of one register write. */
  function Apply(f: GpioFile, w: GpioWrite): GpioFile
  {
    match w.reg
    case GpFsel0 => f.(gpfsel0 := w.bits)
    case GpFsel1 => f.(gpfsel1 := w.bits)
    case GpFsel2 => f.(gpfsel2 := w.bits)
    case GpFsel3 => f.(gpfsel3 := w.bits)
    case GpFsel4 => f.(gpfsel4 := w.bits)
    case GpFsel5 => f.(gpfsel5 := w.bits)
    case GpSet0 => f.(gplev0 := Or(f.gplev0, w.bits))
    case GpSet1 => f.(gplev1 := Or(f.gplev1, w.bits))
    case GpClr0 => f.(gplev0 := AndNot(f.gplev0, w.bits))
    case GpClr1 => f.(gplev1 := AndNot(f.gplev1, w.bits))
    case GpLev0 => f
    case GpLev1 => f
  }

  /** The register state after performing `ws` in order. */
  function Replay(f: GpioFile, ws: seq<GpioWrite>): GpioFile
    decreases |ws|
  {
    if |ws| == 0 then f else Replay(Apply(f, ws[0]), ws[1..])
  }

  /** Replaying two traces one after the other is replaying their concatenation. */
  lemma {:induction false} ReplayConcat(f: GpioFile, a: seq<GpioWrite>, b: seq<GpioWrite>)
    ensures Replay(f, a + b) == Replay(Replay(f, a), b)
    decreases |a|
  {
    if |a| == 0 {
      assert a + b == b;
    } else {
      assert (a + b)[1..] == a[1..] + b;
      ReplayConcat(Apply(f, a[0]), a[1..], b);
    }
  }

  /** A write to a function-select register leaves both level registers alone, and a
      write to a set/clear register leaves every function-select register alone. */
  lemma ApplySeparatesBanks(f: GpioFile, w: GpioWrite)
    ensures IsFselRegister(w.reg) ==> Apply(f, w).gplev0 == f.gplev0 && Apply(f, w).gplev1 == f.gplev1
    ensures IsLevelWrite(w.reg) ==> forall b | 0 <= b < 6 :: Fsel(Apply(f, w), b) == Fsel(f, b)
  {
  }
}

=== FILE: serial.dfy ===
/**
 The UART0 serial driver (`baremetal-raspi/src/serial.rs`): which pins may carry the
 UART's TX and RX lines, the bring-up write sequence, the single-attempt `read`, `write`
 and `flush`, and the blocking `write_bytes` and `read_bytes` loops.

 The hardware's side of each exchange is an input. Every read of the flag register
 takes the next snapshot from a finite sequence, and every `read` attempt takes the next
 (data register, flag register) pair. A blocking loop that uses up its snapshots
 without finishing is reported as starved; whether the hardware eventually lets a
 blocking loop finish is not modelled.
 */
module Serial {
  import opened Optional
  import opened Gpio
  import opened UartRegisters
  import Baud

  /** Hard receive errors. */
  datatype Error = Framing | Overrun | Parity

  /** `nb::Result`: a value, "not ready, retry", or a hard error. */
  datatype NbResult<T> = Ok(value: T) | WouldBlock | Other(error: Error)

  /** `Result<T, Error>`. */
  datatype Result<T> = Success(value: T) | Failure(error: Error)

  /** The flag register fields the driver reads. */
  datatype Flags = Flags(busy: bool, rxfe: bool, txff: bool)

  /** The data register as read: the received byte and its error flags. */
  datatype DataReg = DataReg(data: Byte, fe: bool, pe: bool, be: bool, oe: bool)

  /** What one `read` attempt sees: the data register, then the flag register. */
  datatype RxPoll = RxPoll(dr: DataReg, fr: Flags)

  /** `TxPin<UART0>`: the (pin, mode) pairs that may carry UART0's transmit line. */
  predicate IsTxPin(p: Pin)
  {
    p == Pin(14, AF0) || p == Pin(32, AF3) || p == Pin(36, AF2)
  }

  /** `RxPin<UART0>`: the (pin, mode) pairs that may carry UART0's receive line. */
  predicate IsRxPin(p: Pin)
  {
    p == Pin(15, AF0) || p == Pin(33, AF3) || p == Pin(37, AF2)
  }

  /** Each RX pin is the pin after a TX pin, in the same mode, and no pin serves both. */
  lemma RxPinFollowsTxPin(p: Pin)
    ensures IsRxPin(p) <==> p.id >= 1 && IsTxPin(Pin(p.id - 1, p.mode))
    ensures !(IsTxPin(p) && IsRxPin(p))
  {
  }

  /** The capability pairs use alternate-function modes only, so a pin fresh from
      `split` (Input) can serve neither role until converted. */
  lemma CapablePinsAreAlternate(p: Pin)
    ensures IsTxPin(p) || IsRxPin(p) ==> p.mode in {AF0, AF2, AF3}
    ensures p.mode == Input ==> !IsTxPin(p) && !IsRxPin(p)
  {
  }

  /** The driver checks TX and RX each on its own, so a pair drawn from two different
      wirings, such as pin 14 in AF0 with pin 37 in AF2, is accepted too. */
  lemma MixedPairAccepted(uart: UartPeripheral)
    ensures IsTxPin(Pin(14, AF0)) && IsRxPin(Pin(37, AF2))
    ensures Uart0(uart, Pin(14, AF0), Pin(37, AF2), [Flags(false, false, false)])
         == Configured(Serial0(uart, Pin(14, AF0), Pin(37, AF2)), Quiesce + Settings, 1)
  {
  }

  /** The UART0 peripheral handle. */
  datatype UartPeripheral = Uart0Peripheral

  /** `Serial<UART0, (TX, RX)>`: the peripheral and the pin pair it owns. */
  datatype Serial0 = Serial0(uart: UartPeripheral, tx: Pin, rx: Pin)

  /** Control value written first: everything off. */
  const Disabled: Control := Control(false, false, false)

  /** Control value written last: UART, transmitter and receiver on. */
  const Enabled: Control := Control(true, true, true)

  /** Interrupts cleared during bring-up. */
  const InitClear: set<Interrupt> :=
    {OverrunError, BreakError, ParityError, FramingError, ReceiveTimeout, Transmit, Receive}

  /** Interrupt mask set/clear bits the bring-up sets (the source's comment calls this
      masking every interrupt; what a set bit means to the hardware is not modelled). */
  const InitMask: set<Interrupt> :=
    {CtsModem, Receive, Transmit, ReceiveTimeout, FramingError, ParityError, BreakError, OverrunError}

  /** Line control written during bring-up: word length code 0b11, FIFO on, one stop
      bit, no parity, no break. */
  const InitLine: LineControl := LineControl(3, true, false, false, false)

  /** `flush` single attempt: Ok iff the UART is not busy; never a hard error; reads the
      flag register only. */
  function Flush(fr: Flags): (r: NbResult<()>)
    ensures r.Ok? <==> !fr.busy
    ensures r.WouldBlock? <==> fr.busy
    ensures !r.Other?
  {
    if !fr.busy then Ok(()) else WouldBlock
  }

  /** `block!(flush()).unwrap()`: polls until a snapshot shows the UART idle, returning how
      many snapshots it read. `unwrap` never panics, because `flush` never fails. */
  function AwaitIdle(frs: seq<Flags>): (r: Option<nat>)
    ensures r.Some? ==> 0 < r.value <= |frs| && !frs[r.value - 1].busy
    ensures r.Some? ==> forall j | 0 <= j < r.value - 1 :: frs[j].busy
    ensures r.None? ==> forall j | 0 <= j < |frs| :: frs[j].busy
    decreases |frs|
  {
    if |frs| == 0 then None
    else if Flush(frs[0]).Ok? then Some(1)
    else match AwaitIdle(frs[1..])
      case None => None
      case Some(k) => Some(k + 1)
  }

  /** The outcome of a bring-up: the driver and the writes, or the writes made before the
      busy-wait ran out of snapshots. */
  datatype Bringup =
    | Configured(serial: Serial0, writes: seq<UartWrite>, used: nat)
    | Stalled(writes: seq<UartWrite>)

  /** `Serial::uart0`: disable, clear interrupts, wait until idle, program the divisor,
      line control, interrupt mask bits and DMA control, then enable. The pin pair must satisfy
      the TX and RX capabilities, each on its own. */
  function Uart0(uart: UartPeripheral, tx: Pin, rx: Pin, frs: seq<Flags>): (r: Bringup)
    requires IsTxPin(tx) && IsRxPin(rx)
    ensures r.Configured? <==> AwaitIdle(frs).Some?
    ensures r.Configured? ==> r.serial == Serial0(uart, tx, rx) && r.used == AwaitIdle(frs).value
    ensures |r.writes| >= 2 && r.writes[0] == Cr(Disabled) && r.writes[1] == Icr(InitClear)
    ensures r.Stalled? ==> |r.writes| == 2
    ensures r.Configured? ==> |r.writes| == 8 && r.writes[7] == Cr(Enabled)
    ensures r.Configured? ==> r.writes[2] == Ibrd(312) && r.writes[3] == Fbrd(32) && r.writes[4] == LcrH(InitLine)
    ensures r.Configured? ==> r.writes[5] == Imsc(InitMask) && r.writes[6] == Dmacr(0)
    ensures forall k | 0 < k < |r.writes| - 1 :: !r.writes[k].Cr?
  {
    match AwaitIdle(frs)
    case None => Stalled(Quiesce)
    case Some(k) => Configured(Serial0(uart, tx, rx), Quiesce + Settings, k)
  }

  /** The writes before the busy-wait: disable, then clear the pending interrupts. */
  const Quiesce: seq<UartWrite> := [Cr(Disabled), Icr(InitClear)]

  /** The writes after the busy-wait: the divisor 312 + 32/64, line control, interrupt
      mask, DMA off, then enable. */
  const Settings: seq<UartWrite> :=
    [Ibrd(312), Fbrd(32), LcrH(InitLine), Imsc(InitMask), Dmacr(0), Cr(Enabled)]

  /** From any prior state, a completed bring-up leaves the UART enabled for 8-bit words,
      FIFO on, one stop bit, no parity, no break, the listed interrupt mask bits set,
      DMA off, the bring-up interrupts cleared and nothing transmitted, and the divisor
      registers hold the divisor of the 48 MHz clock at 9600 baud. */
  lemma BringupConfigures(u: UartFile, uart: UartPeripheral, tx: Pin, rx: Pin, frs: seq<Flags>)
    requires IsTxPin(tx) && IsRxPin(rx)
    ensures var r := Uart0(uart, tx, rx, frs);
            r.Configured? ==>
              var v := UartReplay(u, r.writes);
              && v.cr.uarten && v.cr.txe && v.cr.rxe
              && WordLength(v.lcrH) == 8 && v.lcrH.fen && !v.lcrH.stp2 && !v.lcrH.pen && !v.lcrH.brk
              && Baud.BaudDivisor(Baud.UartClock, Baud.BaudRate) == Baud.Divisor(v.ibrd, v.fbrd)
              && v.imsc == InitMask && v.dmacr == 0
              && v.pending == u.pending - InitClear
              && v.transmitted == u.transmitted
  {
    var r := Uart0(uart, tx, rx, frs);
    if r.Configured? {
      Baud.ProgrammedDivisor();
      UartReplayConcat(u, Quiesce, Settings);
      ReplayQuiesce(u);
      ReplaySettings(UartReplay(u, Quiesce));
    }
  }

  /** Replaying the first two bring-up writes disables the UART and clears the listed
      interrupts. */
  lemma ReplayQuiesce(u: UartFile)
    ensures UartReplay(u, Quiesce) == u.(cr := Disabled, pending := u.pending - InitClear)
  {
    var u1 := UartApply(u, Quiesce[0]);
    ReplayAt(u, Quiesce, 0);
    assert Quiesce[0..] == Quiesce;
    ReplayAt(u1, Quiesce, 1);
  }

  /** Replaying the bring-up writes after the busy-wait sets the divisor, line control,
      mask and DMA control and then enables the UART. */
  lemma ReplaySettings(u: UartFile)
    ensures UartReplay(u, Settings)
         == u.(ibrd := 312, fbrd := 32, lcrH := InitLine, imsc := InitMask, dmacr := 0, cr := Enabled)
  {
    var ws := Settings;
    var u1 := UartApply(u, ws[0]);
    var u2 := UartApply(u1, ws[1]);
    var u3 := UartApply(u2, ws[2]);
    var u4 := UartApply(u3, ws[3]);
    var u5 := UartApply(u4, ws[4]);
    assert ws[0..] == ws;
    ReplayAt(u, ws, 0);
    ReplayAt(u1, ws, 1);
    ReplayAt(u2, ws, 2);
    ReplayAt(u3, ws, 3);
    ReplayAt(u4, ws, 4);
    ReplayAt(u5, ws, 5);
  }

  /** Replaying from position `i` performs write `i` and then the rest. */
  lemma ReplayAt(u: UartFile, ws: seq<UartWrite>, i: nat)
    requires i < |ws|
    ensures UartReplay(u, ws[i..]) == UartReplay(UartApply(u, ws[i]), ws[i + 1..])
  {
    assert ws[i..][1..] == ws[i + 1..];
  }

  /** Every write between the first and the last happens with the UART disabled, and a
      bring-up that stalls in its busy-wait leaves the UART disabled. */
  lemma BringupConfiguresWhileDisabled(u: UartFile, uart: UartPeripheral, tx: Pin, rx: Pin, frs: seq<Flags>)
    requires IsTxPin(tx) && IsRxPin(rx)
    ensures var r := Uart0(uart, tx, rx, frs);
            forall k | 0 < k < |r.writes| :: !UartReplay(u, r.writes[..k]).cr.uarten
    ensures var r := Uart0(uart, tx, rx, frs);
            r.Stalled? ==> UartReplay(u, r.writes).cr == Disabled
  {
    var r := Uart0(uart, tx, rx, frs);
    forall k | 0 < k < |r.writes|
      ensures !UartReplay(u, r.writes[..k]).cr.uarten
    {
      StaysDisabled(u, r.writes, k);
    }
    if r.Stalled? {
      StaysDisabled(u, r.writes, 2);
      assert r.writes[..2] == r.writes;
    }
  }

  /** Replaying a prefix that starts by disabling and contains no other control write
      leaves the UART disabled. */
  lemma {:induction false} StaysDisabled(u: UartFile, ws: seq<UartWrite>, k: nat)
    requires 0 < k <= |ws| && ws[0] == Cr(Disabled)
    requires forall j | 0 < j < k :: !ws[j].Cr?
    ensures UartReplay(u, ws[..k]).cr == Disabled
    decreases k
  {
    if k == 1 {
      assert ws[..1] == [ws[0]];
      assert UartReplay(u, [ws[0]]) == UartReplay(UartApply(u, ws[0]), []);
    } else {
      StaysDisabled(u, ws, k - 1);
      assert ws[..k] == ws[..k - 1] + [ws[k - 1]];
      UartReplayConcat(u, ws[..k - 1], [ws[k - 1]]);
      assert UartReplay(UartReplay(u, ws[..k - 1]), [ws[k - 1]])
          == UartReplay(UartApply(UartReplay(u, ws[..k - 1]), ws[k - 1]), []);
    }
  }

  /** `Serial::free`: gives back the peripheral and the pins; writes nothing. */
  function Free(s: Serial0): (r: (UartPeripheral, (Pin, Pin)))
    ensures r.0 == s.uart && r.1.0 == s.tx && r.1.1 == s.rx
  {
    (s.uart, (s.tx, s.rx))
  }

  /** Freeing the driver a bring-up produced returns exactly what went in. */
  lemma FreeAfterBringup(uart: UartPeripheral, tx: Pin, rx: Pin, frs: seq<Flags>)
    requires IsTxPin(tx) && IsRxPin(rx) && AwaitIdle(frs).Some?
    ensures Free(Uart0(uart, tx, rx, frs).serial) == (uart, (tx, rx))
  {
  }

  /** `read` single attempt: overrun, then parity, then framing, then an empty receive
      FIFO, then the data byte. The break flag is not consulted. */
  function Read(p: RxPoll): (r: NbResult<Byte>)
    ensures r == Other(Overrun) <==> p.dr.oe
    ensures r == Other(Parity) <==> !p.dr.oe && p.dr.pe
    ensures r == Other(Framing) <==> !p.dr.oe && !p.dr.pe && p.dr.fe
    ensures r.WouldBlock? <==> !p.dr.oe && !p.dr.pe && !p.dr.fe && p.fr.rxfe
    ensures r.Ok? <==> !p.dr.oe && !p.dr.pe && !p.dr.fe && !p.fr.rxfe
    ensures r.Ok? ==> r.value == p.dr.data
  {
    if p.dr.oe then Other(Overrun)
    else if p.dr.pe then Other(Parity)
    else if p.dr.fe then Other(Framing)
    else if p.fr.rxfe then WouldBlock
    else Ok(p.dr.data)
  }

  /** A set error flag gives a hard error whatever the flag register says; with no error
      flag, an empty receive FIFO gives "not ready", never a hard error; the break flag
      changes nothing. */
  lemma ReadErrorsIgnoreFifo(dr: DataReg, fr1: Flags, fr2: Flags, be: bool)
    ensures dr.oe || dr.pe || dr.fe ==> Read(RxPoll(dr, fr1)).Other? && Read(RxPoll(dr, fr1)) == Read(RxPoll(dr, fr2))
    ensures !dr.oe && !dr.pe && !dr.fe && fr1.rxfe ==> Read(RxPoll(dr, fr1)) == WouldBlock
    ensures Read(RxPoll(dr.(be := be), fr1)) == Read(RxPoll(dr, fr1))
  {
  }

  /** A single attempt of a blocking primitive: its result, the writes it made and how
      many snapshots it read, or Starved when the snapshots ran out first. */
  datatype Attempt<T> = Finished(result: NbResult<T>, writes: seq<UartWrite>, used: nat) | Starved

  /** `write` single attempt: wait until idle, read the flags once more, and queue the
      byte iff the transmit FIFO is not full. */
  function WriteAttempt(frs: seq<Flags>, b: Byte): (r: Attempt<()>)
    ensures r.Finished? ==> 2 <= r.used <= |frs| && !frs[r.used - 2].busy
    ensures r.Finished? ==> AwaitIdle(frs) == Some(r.used - 1)
    ensures r.Finished? ==> !r.result.Other?
    ensures r.Finished? ==> (r.result.Ok? <==> !frs[r.used - 1].txff)
    ensures r.Finished? ==> r.writes == if r.result.Ok? then [Dr(b)] else []
    ensures r.Starved? <==> AwaitIdle(frs).None? || AwaitIdle(frs).value == |frs|
  {
    match AwaitIdle(frs)
    case None => Starved
    case Some(k) =>
      if k == |frs| then Starved
      else if !frs[k].txff then Finished(Ok(()), [Dr(b)], k + 1)
      else Finished(WouldBlock, [], k + 1)
  }

  /** `block!(write(b))`: repeats the attempt while it reports "not ready". Since `write`
      never fails, a finished blocking write succeeded and queued exactly `b`; and it
      finishes after two snapshots when the first shows the UART idle and the second a
      transmit FIFO with room. */
  function BlockWrite(frs: seq<Flags>, b: Byte): (r: Attempt<()>)
    ensures r.Finished? ==> r.result == Ok(()) && r.writes == [Dr(b)] && 0 < r.used <= |frs|
    ensures |frs| >= 2 && !frs[0].busy && !frs[1].txff ==> r == Finished(Ok(()), [Dr(b)], 2)
    decreases |frs|
  {
    match WriteAttempt(frs, b)
    case Starved => Starved
    case Finished(res, ws, k) =>
      if res.WouldBlock? then
        match BlockWrite(frs[k..], b)
        case Starved => Starved
        case Finished(res2, ws2, k2) => Finished(res2, ws2, k + k2)
      else Finished(res, ws, k)
  }

  /** The data-register writes that send `bytes` in order. */
  function DataWrites(bytes: seq<Byte>): (ws: seq<UartWrite>)
    ensures |ws| == |bytes|
    ensures forall i | 0 <= i < |bytes| :: ws[i] == Dr(bytes[i])
  {
    seq(|bytes|, i requires 0 <= i < |bytes| => Dr(bytes[i]))
  }

  datatype WriteOutcome =
    | WriteReturned(result: Result<()>, writes: seq<UartWrite>, used: nat)
    | WriteStarved(writes: seq<UartWrite>, used: nat)

  /** Every snapshot shows the UART idle with room in the transmit FIFO. */
  predicate AlwaysReady(frs: seq<Flags>)
  {
    forall j | 0 <= j < |frs| :: !frs[j].busy && !frs[j].txff
  }

  /** `write_bytes`: a blocking write per byte, in order. It returns Ok whenever it
      returns, having written every byte once and in order. It starves only when the
      blocking write of the next byte starves on the snapshots left, having written the
      data writes of a proper prefix of the buffer. With every snapshot ready, two per
      byte are enough to send the whole buffer. */
  method WriteBytes(buffer: seq<Byte>, frs: seq<Flags>) returns (r: WriteOutcome)
    ensures r.used <= |frs|
    ensures r.WriteReturned? ==> r.result == Success(()) && r.writes == DataWrites(buffer)
    ensures r.WriteStarved? ==> |r.writes| < |buffer| && r.writes == DataWrites(buffer[..|r.writes|])
    ensures r.WriteStarved? ==> BlockWrite(frs[r.used..], buffer[|r.writes|]).Starved?
    ensures |buffer| == 0 ==> r == WriteReturned(Success(()), [], 0)
    ensures AlwaysReady(frs) && |frs| >= 2 * |buffer| ==> r == WriteReturned(Success(()), DataWrites(buffer), 2 * |buffer|)
  {
    var writes: seq<UartWrite> := [];
    var used := 0;
    var i := 0;
    while i < |buffer|
      invariant 0 <= i <= |buffer| && used <= |frs|
      invariant writes == DataWrites(buffer[..i])
      invariant i == 0 ==> used == 0
      invariant AlwaysReady(frs) && |frs| >= 2 * |buffer| ==> used == 2 * i
    {
      if AlwaysReady(frs) && |frs| >= 2 * |buffer| {
        assert frs[used..][0] == frs[used] && frs[used..][1] == frs[used + 1];
      }
      match BlockWrite(frs[used..], buffer[i])
      case Starved =>
        return WriteStarved(writes, used);
      case Finished(_, ws, k) =>
        assert DataWrites(buffer[..i + 1]) == DataWrites(buffer[..i]) + [Dr(buffer[i])];
        writes := writes + ws;
        used := used + k;
        i := i + 1;
    }
    assert buffer[..i] == buffer;
    return WriteReturned(Success(()), writes, used);
  }

  /** Sending the data writes of `bytes` appends `bytes` to what the UART transmitted and
      changes nothing else. */
  lemma {:induction false} DataWritesTransmit(u: UartFile, bytes: seq<Byte>)
    ensures UartReplay(u, DataWrites(bytes)) == u.(transmitted := u.transmitted + bytes)
    decreases |bytes|
  {
    if |bytes| == 0 {
      assert u.transmitted + bytes == u.transmitted;
    } else {
      var ws := DataWrites(bytes);
      assert ws[1..] == DataWrites(bytes[1..]);
      DataWritesTransmit(UartApply(u, ws[0]), bytes[1..]);
      assert u.transmitted + [bytes[0]] + bytes[1..] == u.transmitted + bytes;
    }
  }

  /** The bytes the successful `read` attempts among `polls` returned, in order. */
  function Received(polls: seq<RxPoll>): seq<Byte>
    decreases |polls|
  {
    if |polls| == 0 then []
    else Received(polls[..|polls| - 1]) + (match Read(polls[|polls| - 1]) case Ok(b) => [b] case _ => [])
  }

  /** No attempt among `polls` reported a hard error. */
  predicate NoHardError(polls: seq<RxPoll>)
  {
    forall j | 0 <= j < |polls| :: !Read(polls[j]).Other?
  }

  datatype ReadOutcome =
    | ReadReturned(result: Result<()>, buffer: seq<Byte>, used: nat)
    | ReadIndexPanic(buffer: seq<Byte>, used: nat)
    | ReadStarved(buffer: seq<Byte>, used: nat)

  /** `read_bytes`: for `i` in `0..n`, a blocking read stored into `buffer[i]`. The read
      happens before the store, so a hard error on the read at `i == |buffer|` is
      returned, and a byte read there panics on the out-of-bounds store.
      - returning Ok, it filled `buffer[..n]` with the first `n` bytes received and kept
        the rest;
      - returning an error, that error is the first hard error seen, the bytes received
        before it fill a prefix and the rest is unchanged;
      - it panics only when `n > |buffer|`. */
  method ReadBytes(n: nat, buffer: seq<Byte>, polls: seq<RxPoll>) returns (r: ReadOutcome)
    ensures |r.buffer| == |buffer| && r.used <= |polls|
    ensures r.ReadReturned? && r.result.Success? ==>
              && n <= |buffer|
              && NoHardError(polls[..r.used])
              && |Received(polls[..r.used])| == n
              && r.buffer == Received(polls[..r.used]) + buffer[n..]
    ensures r.ReadReturned? && r.result.Failure? ==>
              && 0 < r.used
              && Read(polls[r.used - 1]) == Other(r.result.error)
              && NoHardError(polls[..r.used - 1])
              && |Received(polls[..r.used - 1])| < n
              && |Received(polls[..r.used - 1])| <= |buffer|
              && r.buffer == Received(polls[..r.used - 1]) + buffer[|Received(polls[..r.used - 1])|..]
    ensures r.ReadIndexPanic? ==>
              && |buffer| < n
              && NoHardError(polls[..r.used])
              && |Received(polls[..r.used])| == |buffer| + 1
    ensures r.ReadStarved? ==> r.used == |polls| && NoHardError(polls) && |Received(polls)| < n
  {
    var buf := buffer;
    var i := 0;
    var used := 0;
    ghost var got: seq<Byte> := [];
    while i < n
      invariant used <= |polls|
      invariant got == Received(polls[..used]) && NoHardError(polls[..used])
      invariant i == |got| && i <= n && i <= |buffer|
      invariant buf == got + buffer[i..]
      decreases |polls| - used
    {
      if used == |polls| {
        assert polls[..used] == polls;
        return ReadStarved(buf, used);
      }
      ReceivedStep(polls, used);
      var b := Read(polls[used]);
      if b.Other? {
        assert polls[..used + 1 - 1] == polls[..used];
        return ReadReturned(Failure(b.error), buf, used + 1);
      }
      if b.Ok? {
        if i >= |buf| {
          return ReadIndexPanic(buf, used + 1);
        }
        StoreStep(got, b.value, buffer);
        buf := buf[i := b.value];
        got := got + [b.value];
        i := i + 1;
      }
      used := used + 1;
    }
    return ReadReturned(Success(()), buf, used);
  }

  /** One more poll extends what was received by that poll's byte, if it gave one, and
      keeps the run free of hard errors exactly when that poll had none. */
  lemma ReceivedStep(polls: seq<RxPoll>, used: nat)
    requires used < |polls|
    ensures Received(polls[..used + 1])
         == Received(polls[..used]) + (if Read(polls[used]).Ok? then [Read(polls[used]).value] else [])
    ensures NoHardError(polls[..used + 1]) <==> NoHardError(polls[..used]) && !Read(polls[used]).Other?
  {
    assert polls[..used + 1][..used] == polls[..used];
  }

  /** Storing the next byte at index `|got|` extends the filled prefix by that byte. */
  lemma StoreStep(got: seq<Byte>, b: Byte, buffer: seq<Byte>)
    requires |got| < |buffer|
    ensures (got + buffer[|got|..])[|got| := b] == got + [b] + buffer[|got| + 1..]
  {
  }
}

=== FILE: uart_registers.dfy ===
/**
 The UART0 (PL011-style) registers the serial driver writes, with their fields as named
 values rather than bit positions: control, interrupt clear, integer and fractional baud
 divisors, line control, interrupt mask, DMA control and the data register. A write to
 the data register queues one byte for transmission; a write to the interrupt-clear
 register clears the named pending interrupts.
 */
module UartRegisters {

  /** `u8`. */
  type Byte = b: nat | b < 256

  /** The interrupt sources named by the interrupt clear and mask registers. */
  datatype Interrupt =
    | RingIndicatorModem | CtsModem | DcdModem | DsrModem
    | Receive | Transmit | ReceiveTimeout
    | FramingError | ParityError | BreakError | OverrunError

  /** Control register fields: UART enable, transmit enable, receive enable. */
  datatype Control = Control(uarten: bool, txe: bool, rxe: bool)

  /** Line control fields: word length code, FIFO enable, two stop bits, parity enable,
      send break. */
  datatype LineControl = LineControl(wlen: nat, fen: bool, stp2: bool, pen: bool, brk: bool)

  /** Bits per character selected by a word length code: 0b00 is 5, 0b11 is 8. */
  function WordLength(lc: LineControl): nat
  {
    5 + lc.wlen
  }

  datatype UartWrite =
    | Cr(control: Control)
    | Icr(clear: set<Interrupt>)
    | Ibrd(divInt: nat)
    | Fbrd(divFrac: nat)
    | LcrH(line: LineControl)
    | Imsc(mask: set<Interrupt>)
    | Dmacr(bits: nat)
    | Dr(data: Byte)

  /** The UART's state as far as the writes determine it. */
  datatype UartFile = UartFile(
    cr: Control, pending: set<Interrupt>, ibrd: nat, fbrd: nat, lcrH: LineControl,
    imsc: set<Interrupt>, dmacr: nat, transmitted: seq<Byte>)

  /** The effect of one write. */
  function UartApply(u: UartFile, w: UartWrite): UartFile
  {
    match w
    case Cr(c) => u.(cr := c)
    case Icr(s) => u.(pending := u.pending - s)
    case Ibrd(d) => u.(ibrd := d)
    case Fbrd(d) => u.(fbrd := d)
    case LcrH(lc) => u.(lcrH := lc)
    case Imsc(s) => u.(imsc := s)
    case Dmacr(d) => u.(dmacr := d)
    case Dr(b) => u.(transmitted := u.transmitted + [b])
  }

  /** The state after performing `ws` in order. */
  function UartReplay(u: UartFile, ws: seq<UartWrite>): UartFile
    decreases |ws|
  {
    if |ws| == 0 then u else UartReplay(UartApply(u, ws[0]), ws[1..])
  }

  /** Replaying two traces one after the other is replaying their concatenation. */
  lemma {:induction false} UartReplayConcat(u: UartFile, a: seq<UartWrite>, b: seq<UartWrite>)
    ensures UartReplay(u, a + b) == UartReplay(UartReplay(u, a), b)
    decreases |a|
  {
    if |a| == 0 {
      assert a + b == b;
    } else {
      assert (a + b)[1..] == a[1..] + b;
      UartReplayConcat(UartApply(u, a[0]), a[1..], b);
    }
  }
}

=== FILE: words.dfy ===
/** Optional values, used where the source either yields something or panics. */
module Optional {

  datatype Option<+T> = None | Some(value: T)
}

/**
 A 32-bit register value as a sequence of 32 booleans, bit 0 first, together with the
 operations of Rust's `u32` that the drivers use: single-bit masks, or/and-not, and the
 left shift `<<`, whose behaviour for shift amounts of 32 or more depends on whether
 overflow checks are compiled in.
 */
module Words {
  import opened Optional

  type Word = w: seq<bool> | |w| == 32 witness seq(32, _ => false)

  /** The word 0. */
  function Zero(): Word
  {
    seq(32, _ => false)
  }

  /** The word `1 << k`. */
  function OnlyBit(k: nat): Word
    requires k < 32
  {
    seq(32, i => i == k)
  }

  /** Bitwise `a | b`. */
  function Or(a: Word, b: Word): Word
  {
    seq(32, i requires 0 <= i < 32 => a[i] || b[i])
  }

  /** Bitwise `a & b`. */
  function And(a: Word, b: Word): Word
  {
    seq(32, i requires 0 <= i < 32 => a[i] && b[i])
  }

  /** Bitwise `a & !b`. */
  function AndNot(a: Word, b: Word): Word
  {
    seq(32, i requires 0 <= i < 32 => a[i] && !b[i])
  }

  /** `x << s` for a shift amount below 32: bits move up by `s`, bits pushed past 31 are lost. */
  function ShiftLeft(x: Word, s: nat): Word
    requires s < 32
  {
    seq(32, i requires 0 <= i < 32 => i >= s && x[i - s])
  }

  /** The two ways a Rust crate is compiled: with arithmetic overflow checks (the `dev`
      profile) or without them (the `release` profile). */
  datatype Profile = Debug | Release

  /** Rust's `x << s` on `u32`. A shift amount of 32 or more is an arithmetic overflow:
      it panics when overflow checks are on, and is taken modulo 32 when they are off. */
  function Shl(x: Word, s: nat, profile: Profile): (r: Option<Word>)
    ensures r.None? <==> s >= 32 && profile == Debug
    ensures s < 32 ==> r == Some(ShiftLeft(x, s))
    ensures s >= 32 && profile == Release ==> r == Some(ShiftLeft(x, s % 32))
  {
    if s < 32 then Some(ShiftLeft(x, s))
    else if profile == Debug then None
    else Some(ShiftLeft(x, s % 32))
  }

  /** Bit `j` (0, 1 or 2) of a 3-bit code. */
  function CodeBit(c: nat, j: nat): bool
    requires c < 8 && j < 3
  {
    if j == 0 then c % 2 == 1
    else if j == 1 then (c / 2) % 2 == 1
    else c / 4 == 1
  }

  /** The 3-bit code `c` as the low bits of a word (a `u32` constant such as `0b100`). */
  function CodeWord(c: nat): Word
    requires c < 8
  {
    seq(32, i requires 0 <= i < 32 => i < 3 && CodeBit(c, i))
  }

  /** The 3-bit code held at bits `3*slot .. 3*slot+2` of `w`. */
  function FieldCode(w: Word, slot: nat): (c: nat)
    requires slot < 10
    ensures c < 8
  {
    (if w[3 * slot] then 1 else 0)
    + (if w[3 * slot + 1] then 2 else 0)
    + (if w[3 * slot + 2] then 4 else 0)
  }

  /** Or-ing in a single-bit mask sets exactly that bit. */
  lemma OrOnlyBit(w: Word, k: nat)
    requires k < 32
    ensures Or(w, OnlyBit(k)) == w[k := true]
  {
    assert forall i | 0 <= i < 32 :: Or(w, OnlyBit(k))[i] == w[k := true][i];
  }

  /** And-not-ing a single-bit mask clears exactly that bit. */
  lemma AndNotOnlyBit(w: Word, k: nat)
    requires k < 32
    ensures AndNot(w, OnlyBit(k)) == w[k := false]
  {
    assert forall i | 0 <= i < 32 :: AndNot(w, OnlyBit(k))[i] == w[k := false][i];
  }

  /** `w & (1 << k) == 0` tests exactly bit `k`. */
  lemma MaskIsZeroIffBitClear(w: Word, k: nat)
    requires k < 32
    ensures And(w, OnlyBit(k)) == Zero() <==> !w[k]
  {
    if !w[k] {
      assert forall i | 0 <= i < 32 :: And(w, OnlyBit(k))[i] == Zero()[i];
    } else {
      assert And(w, OnlyBit(k))[k] != Zero()[k];
    }
  }

  /** A word whose field `slot` carries the three bits of `c` reads back as `c`. */
  lemma FieldFromCodeBits(w: Word, slot: nat, c: nat)
    requires slot < 10 && c < 8
    requires w[3 * slot] == CodeBit(c, 0) && w[3 * slot + 1] == CodeBit(c, 1) && w[3 * slot + 2] == CodeBit(c, 2)
    ensures FieldCode(w, slot) == c
  {
  }

  /** Two codes agree iff their three bits agree. */
  lemma CodeBitsDetermineCode(c: nat, d: nat)
    requires c < 8 && d < 8
    ensures (CodeBit(c, 0) == CodeBit(d, 0) && CodeBit(c, 1) == CodeBit(d, 1) && CodeBit(c, 2) == CodeBit(d, 2)) <==> c == d
  {
  }
}
